=== FILE: README.md ===
# JuiceDollar client: position adjustment, modelled in Dafny

This project models the decision logic of the JuiceDollar web client ("bapp"). Its core is the mint page, where a
borrower adjusts an open position. A position holds collateral, a debt in the JUSD stablecoin and a liquidation
price. Prices and debts are BigInt amounts with 18 decimals (`SCALE = 10^18`). A position is covered when
`debt * 10^18 <= collateral * price`, which is `Common.Covered`.

- **Liquidation-price form** (`AdjustLiqPrice`):
  - the new price and the slider bound;
  - the collateral a price rise frees, floored at the position's minimum collateral;
  - the lowest price a decrease may reach;
  - the cooldown gate and the execute gates;
  - the ordered plan of contract calls: withdraw collateral first, then adjust the price.

  The gates and the plan take a `Rounding` parameter. `Floor` is the form as written, with its truncating divisions.
  `Ceil` is the corrected form, which rounds the two requirements up (see "## Findings").

  The main property is `PlanKeepsPositionCovered`: any plan the corrected form lets through leaves a covered
  position covered once the whole plan has run. The state between the two calls is not covered at the old price in
  general (`AfterWithdrawal`, `WithdrawalUncoveredAtOldPrice`).
- **Loan form** (`AdjustLoan`):
  - the borrow/repay bound;
  - full repayment with its 0.1% dust threshold, and the outcome the form builds itself for it;
  - the dispatch of every other amount to the position solver;
  - merging two solver outcomes;
  - the amount error, the repayment and approval amounts, and the confirm button.
- **Adjustment wizard** (`ManageSolver`): a four-step state machine (select target, enter value, choose strategy,
  preview). Every button is an event. `Consistent` is an invariant of every reachable state.
- **Helpers**:
  - reference-position selection (`ValidReferencePosition`, `ReferencePosition`);
  - expandable tables (`ExpandableTable`);
  - decimal tables and delta rendering (`PositionFormatting`, `SelectAssetModal`);
  - the footer's docs link and referral code (`Footer`);
  - chain/RPC selection, the ten-minute indexer fallback and the blacklist (`AppConfig`);
  - the sort/tab state of two tables (`BonusHistoryTable`, `GovernanceVotersTable`).

The position solver (`utils/positionSolver`) is not part of this model. Its `solveManage` is the uninterpreted
parameter type `SolverTypes.Solve`. One call answers with an outcome, with `null`, or by throwing
(`SolverTypes.Answer`). The wizard's effect catches a throw, and so does the loan form's effect. The loan form's
render-time calls do not catch (`AdjustLoan.RenderThrows`). Its
`getStrategiesForTarget` is the parameter `Env.strategiesFor`. Nothing is assumed about what either computes.

The clock is an explicit parameter `now`. Number rendering (`formatCurrency`, `formatUnits`) and `shortenHash` are
also parameters. Text fields that hold amounts are `Option<nat>`, where `None` is the empty field. Sort keys that
the client derives with `Number`, `parseInt`, float ratios or `localeCompare` are abstract integer keys.

Shared modules:
- `Common`: `Option`, the BigInt division error, exact floor/ceiling quotients and the coverage lemmas.
- `Text`: case folding and substring search.
- `Sorting`: a stable sort by key, reverse and filter, with permutation and order contracts.

`AdjustLoan.tsx` line 76 divides the price/collateral growth ratio a second time, by the current debt. It is
modelled literally. `AdjustLoan.BorrowBoundCollapses` proves the consequence: with a debt of two units or more,
and no more wallet collateral than the position holds, the borrow bound is 0. A zero bound disables the amount
error (`AdjustLoan.AmountErrorIff`), so any borrow amount passes that check.

## Model

| member | source | states |
|---|---|---|
| AdjustLiqPrice.NewPrice | components/PageMint/AdjustLiqPrice.tsx:63-64 | the new price lies on the chosen side of the current price, exactly `delta` away |
| AdjustLiqPrice.MaxDelta | components/PageMint/AdjustLiqPrice.tsx:65-71 | the slider bound is the smaller of the current price and the room up to the minimum-collateral price (`MaxPriceByCollateral`, lines 66-69); it is the whole current price when there is no floor or no debt |
| AdjustLiqPrice.SliderBoundKeepsFloor | components/PageMint/AdjustLiqPrice.tsx:66-73 | inside the slider, the minimum collateral at the new price is still worth no more than the debt, so the collateral requirement never drops below the minimum collateral |
| AdjustLiqPrice.MinCollateralNeededAsWritten | components/PageMint/AdjustLiqPrice.tsx:73 | the source's requirement is the largest collateral whose value at the new price does not exceed the debt (rounded down); 0 without debt or positive price |
| AdjustLiqPrice.RequiredCollateral | components/PageMint/AdjustLiqPrice.tsx:73 | the corrected requirement is the least collateral that covers the debt at the new price |
| AdjustLiqPrice.CollateralToRemoveAsWritten | components/PageMint/AdjustLiqPrice.tsx:75-79 | the source's removal is 0 except on a nonzero increase; a positive removal leaves exactly the larger of its rounded-down requirement and the minimum collateral |
| AdjustLiqPrice.CollateralToRemove | components/PageMint/AdjustLiqPrice.tsx:75-79 | a positive removal leaves exactly the larger of the covering requirement and the minimum collateral, so what stays is at least the minimum and covers the debt at the new price; no removal means nothing above that level |
| AdjustLiqPrice.RemovalRoundingGap | components/PageMint/AdjustLiqPrice.tsx:73-79 | the corrected removal is at most one unit below the source's, and never leaves less than the source's rounded-down requirement |
| AdjustLiqPrice.RemovalAsWrittenUndercollateralizes | components/PageMint/AdjustLiqPrice.tsx:73-79 | a covered position (collateral 10^18, debt 1, price 2 raised by 1) loses coverage under the source's removal but not under the corrected one |
| AdjustLiqPrice.WholeUnitRemovalUndercollateralizes | components/PageMint/AdjustLiqPrice.tsx:73-126 | on a whole-unit increase (collateral and debt 10^18, price 2 · 10^18, up by 10^18, with removal) both buttons enable; the source withdraws 666666666666666667 and leaves the debt uncovered at the new price, the corrected plan withdraws 666666666666666666 and stays covered |
| AdjustLiqPrice.MinPriceForDecreaseAsWritten | components/PageMint/AdjustLiqPrice.tsx:85-88 | the source's floor price is the largest price at which the collateral is worth no more than the debt (rounded down); 0 without collateral or debt |
| AdjustLiqPrice.MinPriceForDecrease | components/PageMint/AdjustLiqPrice.tsx:85-88 | the corrected floor is the least price at which the current collateral covers the debt |
| AdjustLiqPrice.MaxDeltaDecreaseFrom | components/PageMint/AdjustLiqPrice.tsx:89 | a decrease may go down to the floor and no further, and not at all from a price at or below the floor |
| AdjustLiqPrice.WholeUnitDecreaseUndercollateralizes | components/PageMint/AdjustLiqPrice.tsx:85-126 | on a whole-unit decrease (collateral 3 · 10^18, debt 10^18, price 10^18 + 333333333333333333, down by 10^18) the source's gate lets the price change through to a price where the debt is not covered; the corrected gate disables it |
| AdjustLiqPrice.DecreaseAsWrittenUndercollateralizes | components/PageMint/AdjustLiqPrice.tsx:85-92 | on collateral 3, debt 1, price 10^18, the source enables a decrease of 666666666666666667, which leaves the debt uncovered; the corrected gate disables it |
| AdjustLiqPrice.DisabledIff | components/PageMint/AdjustLiqPrice.tsx:81-142 | `IsDisabled` with `Ceil` (line 142 with rounded-up requirements) holds, so the corrected button is disabled, exactly for a zero amount, an increase during cooldown, a decrease to a negative price or one where the collateral no longer covers the debt, or an increase without strategy while one unit less collateral would still cover the debt and keep the minimum |
| AdjustLiqPrice.DisabledAsWrittenIff | components/PageMint/AdjustLiqPrice.tsx:81-142 | `IsDisabled` with `Floor` (line 142 as written) holds, so the source's button is disabled, exactly for a zero amount, an increase during cooldown, a decrease to a negative price or one where the collateral is worth at most the debt one unit above the new price (`c * (q + 1) <= d * 10^18`), or an increase without strategy while the collateral is above the minimum collateral and worth strictly more than the debt at the new price |
| AdjustLiqPrice.FloorsAgreeIffDivisible | components/PageMint/AdjustLiqPrice.tsx:85-88 | the source's floor price equals the covering one exactly when the collateral divides `debt * 10^18`, and is one unit below it otherwise |
| AdjustLiqPrice.DecreaseBoundaryExample | components/PageMint/AdjustLiqPrice.tsx:85-92 | on collateral 1, debt 1, price 10^18, both gates reject a decrease by 1, although the debt is exactly covered at the current price |
| AdjustLiqPrice.DecreaseInvalidIffBelowFloor | components/PageMint/AdjustLiqPrice.tsx:85-92 | under either rounding, a nonzero decrease is rejected exactly when the new price falls below that rounding's floor price |
| AdjustLiqPrice.DecreaseGateIff | components/PageMint/AdjustLiqPrice.tsx:85-92 | the corrected decrease gate rejects exactly the prices where the collateral stops covering the debt; the source's rejects a negative price or one where the collateral is worth at most the debt one unit above the new price (`c * (q + 1) <= d * 10^18`), which includes some exactly covered prices |
| AdjustLiqPrice.RemovalGateIff | components/PageMint/AdjustLiqPrice.tsx:73-84 | the corrected form asks for a strategy exactly when collateral is above the minimum and one unit less still covers the debt at the new price; the source asks as soon as the collateral is worth strictly more than the debt there |
| AdjustLiqPrice.CooldownOnlyBlocksIncreases | components/PageMint/AdjustLiqPrice.tsx:91-92 | under either rounding, the cooldown blocks only nonzero increases; a nonzero decrease within the floor is never disabled |
| AdjustLiqPrice.AcceptedDecreaseRespectsFloor | components/PageMint/AdjustLiqPrice.tsx:85-92 | a decrease the corrected form enables is nonzero and lands at or above the covering floor price, hence at a non-negative price |
| AdjustLiqPrice.Plan | components/PageMint/AdjustLiqPrice.tsx:108-126 | under either rounding the plan ends with the price adjustment to the new price; it starts with a withdrawal of that rounding's removal exactly when an increase chose removal and the removal is positive |
| AdjustLiqPrice.HandleExecute | components/PageMint/AdjustLiqPrice.tsx:103-126 | under either rounding nothing is sent without a wallet or with a zero amount; otherwise that rounding's plan is sent |
| AdjustLiqPrice.PlanKeepsPositionCovered | components/PageMint/AdjustLiqPrice.tsx:103-126 | from a covered position that meets its minimum collateral, any plan the corrected gates accept leaves, once it has fully run, a covered position at the new price with non-negative collateral that still meets the minimum |
| AdjustLiqPrice.AfterWithdrawal | components/PageMint/AdjustLiqPrice.tsx:108-119 | after the corrected plan's withdrawal the position keeps its old price, and the collateral left meets the minimum and covers the debt at the new price |
| AdjustLiqPrice.WithdrawalUncoveredAtOldPrice | components/PageMint/AdjustLiqPrice.tsx:108-126 | the plan is safe only as a whole: on collateral 10^18, debt 1, price 2 raised by 1, the collateral left after the withdrawal does not cover the debt at the old price 2 |
| AdjustLiqPrice.PlanAsWrittenStrandsDebt | components/PageMint/AdjustLiqPrice.tsx:73-126 | on collateral 1, debt 1, price 10^18 raised by 1, the source asks for the strategy and then withdraws all collateral, leaving debt 1 uncovered; the corrected plan only adjusts the price |
| AdjustLiqPrice.TransitionsResetChoice | components/PageMint/AdjustLiqPrice.tsx:94-101 | under either rounding, a direction switch empties the form and disables it; a new amount that frees collateral needs the strategy again; choosing it is all that is then missing |
| AdjustLiqPrice.InitialFormDisabled | components/PageMint/AdjustLiqPrice.tsx:58-60 | under either rounding the form starts as an empty increase without strategy, which is disabled and sends nothing |
| AdjustLoan.MaxDelta | components/PageMint/AdjustLoan.tsx:71-82 | the bound is the whole debt when repaying and 0 when borrowing without strategy or debt; a zero divisor on line 76 is the division error; with the higher-price strategy, debt plus a positive bound stays within the position limit |
| AdjustLoan.BorrowBoundCollapses | components/PageMint/AdjustLoan.tsx:74-81 | a positive borrow bound needs `debt * (debt + 1) * collateral <= 2 * (collateral + wallet)`, because line 76 divides by the debt a second time |
| AdjustLoan.GrowthBound | components/PageMint/AdjustLoan.tsx:74-76 | for the growth ratio divided twice, a quotient of at least `debt + 1` forces `debt * (debt + 1) * collateral <= 2 * (collateral + wallet)` whenever price at most doubles and collateral grows only by the wallet |
| AdjustLoan.FullRepayIff | components/PageMint/AdjustLoan.tsx:91-92 | a repayment is full exactly when the amount is positive and covers the debt, or 1000 times the residual debt is at most the debt |
| AdjustLoan.FullRepayBoundary | components/PageMint/AdjustLoan.tsx:91-92 | on a debt of 100000, repaying 99999 or 99900 is full, 99899 is not, and borrowing is never a repayment |
| AdjustLoan.FullRepayOutcome | components/PageMint/AdjustLoan.tsx:102-114 | the local outcome is valid, clears the debt, keeps price and expiration, has deltas that agree with the next state, repays first, and withdraws all collateral exactly when asked to |
| AdjustLoan.Merge | components/PageMint/AdjustLoan.tsx:125-131 | the merged outcome takes price and price delta from the keep-collateral outcome and everything else from the keep-price outcome |
| AdjustLoan.MergeLaws | components/PageMint/AdjustLoan.tsx:125-131 | merging an outcome with itself changes nothing, a later merge overrides an earlier one, the merged price before the change is the keep-collateral outcome's, and the merge is the keep-price outcome exactly when both agree on price and price delta |
| AdjustLoan.LoanOutcome | components/PageMint/AdjustLoan.tsx:94-138 | no outcome without a positive amount or, when borrowing, without a strategy; the local outcome on full repayment; the solver at `debt - amount` with keep-collateral on a partial repayment; the chosen strategy at `debt + amount` with one strategy; with both, no outcome when either call throws, the merge when both answer, else the keep-price answer; `null` and a caught throw both leave no outcome |
| AdjustLoan.RenderedBorrowOutcome | components/PageMint/AdjustLoan.tsx:84-138 | on a form that renders (`RenderThrows` false: no throw on lines 87-88), a borrow with a strategy has an outcome exactly when the solver answers for the single strategy, keep-price when both are on; a throwing keep-collateral call with both strategies leaves no outcome and crashes the render |
| AdjustLoan.PartialRepayTargetAboveDust | components/PageMint/AdjustLoan.tsx:100-116 | a partial repayment asks the solver for a positive debt above the dust threshold |
| AdjustLoan.AmountErrorIff | components/PageMint/AdjustLoan.tsx:140-150 | the error `AmountErrorOf` computes appears exactly for a non-empty amount above a positive bound (borrowing only with a strategy on); it suggests more collateral exactly when that strategy is off; a zero bound never raises it |
| AdjustLoan.MaxClickAccepted | components/PageMint/AdjustLoan.tsx:143-154 | the Max button enters exactly the bound, which never raises the amount error, and keeps direction and strategies |
| AdjustLoan.RepayAmount | components/PageMint/AdjustLoan.tsx:152 | the repayment is positive exactly when an outcome lowers the debt, and is then the size of that decrease |
| AdjustLoan.ApprovalCoversRepayment | components/PageMint/AdjustLoan.tsx:426-431 | the button `ConfirmButton` shows approves only when the allowance is short; it approves more than the repayment (twice it, line 162); after that approval the same outcome executes; execution needs a valid outcome, no error and enough allowance |
| AdjustLoan.TransitionsReset | components/PageMint/AdjustLoan.tsx:62-67 | a direction switch leaves no outcome, no error and no strategy but keeps the withdraw-all choice; toggling a strategy twice restores the form |
| SolverTypes.Caught | components/PageMint/ManageSolver.tsx:78-84 | a caller that catches the solver's exception keeps an outcome exactly when the solver returned one, and then keeps that outcome |
| ManageSolver.ReadLiqPrice | components/PageMint/ManageSolver.tsx:45 | the liquidation price read is the contract's price when positive, and 1 when unread or zero |
| ManageSolver.CollateralDecimals | components/PageMint/ManageSolver.tsx:54-58 | collateral decimals are the position's when set and nonzero, otherwise 18 |
| ManageSolver.CurrentPosition | components/PageMint/ManageSolver.tsx:45-52 | the solver snapshot exists exactly when the position is listed, with balances defaulting to 0 and the price read as above |
| ManageSolver.GetValueInfo | components/PageMint/ManageSolver.tsx:54-64 | collateral uses the collateral decimals; price decimals and collateral decimals add up to 36; the loan uses 18; the expiration has value 0 and 0 decimals |
| ManageSolver.SliderHoldsCurrentPrice | components/PageMint/ManageSolver.tsx:157-165 | the price slider spans half to twice the current price, a non-empty range that contains it |
| ManageSolver.Outcome | components/PageMint/ManageSolver.tsx:74-85 | no outcome unless position, target, value and strategy are all present; otherwise there is an outcome exactly when the solver returns one for exactly those, and it is that outcome (`null` and a throw leave none) |
| ManageSolver.ChangeTarget | components/PageMint/ManageSolver.tsx:66-71 | changing the target clears value and strategy and keeps the step; setting the same target changes nothing |
| ManageSolver.Reset | components/PageMint/ManageSolver.tsx:91-97 | start over returns to target selection with nothing chosen |
| ManageSolver.ApplyKeepsConsistent | components/PageMint/ManageSolver.tsx:99-284 | every button press (`Apply`, on the screen `ScreenOf` selects) keeps the wizard consistent: a target exactly off the first step, the expiration target only on its own preview, a value from the strategy step on, a strategy on every other preview |
| ManageSolver.RunKeepsConsistent | components/PageMint/ManageSolver.tsx:99-284 | any sequence of button presses from a consistent state keeps it consistent |
| ManageSolver.ReachableConsistent | components/PageMint/ManageSolver.tsx:29-32 | every state reachable from the initial one is consistent |
| ManageSolver.PickTargetRoutes | components/PageMint/ManageSolver.tsx:115-121 | picking the expiration target opens the expiration section; any other target opens value entry; nothing else is chosen |
| ManageSolver.NextIff | components/PageMint/ManageSolver.tsx:170-176 | Next moves to the strategy step exactly when the value is non-empty and differs from the target's current value, and otherwise changes nothing |
| ManageSolver.PickStrategyPreviews | components/PageMint/ManageSolver.tsx:182-210 | an offered strategy is recorded and leads to a preview whose outcome is the solver's answer for the chosen target, value and strategy; an unoffered one changes nothing |
| ManageSolver.BackAndStartOver | components/PageMint/ManageSolver.tsx:137-279 | back goes from strategies to value entry and from the preview to strategies; it resets from value entry and the expiration section; start over resets from the preview |
| ManageSolver.BlankPreviewIsStuck | components/PageMint/ManageSolver.tsx:212-284 | a preview without an outcome is the `Blank` screen of `ScreenOf` (a non-expiration preview) and no button changes it |
| ValidReferencePosition.Select | hooks/useValidReferencePosition.ts:13-34 | nothing without a current position or with a zero price; otherwise a returned position passes the filter, carries its own address and price, has the highest price of all that pass, and is above the current price; nothing exactly when none passes |
| ReferencePosition.Select | hooks/useReferencePosition.ts:48-64 | the result is the hardcoded address at price 50000·10^18 exactly when the collaterals match ignoring case, that price exceeds the current one and the principal is nonzero; otherwise nothing |
| ReferencePosition.IgnoresStoreDefault | hooks/useReferencePosition.ts:14-64 | the store's default position never changes the result |
| ReferencePosition.MatchesLowerCaseCollateral | hooks/useReferencePosition.ts:51-56 | a lower-case spelling of the hardcoded collateral still selects it |
| ExpandableTable.VisibleData | hooks/useExpandableTable.ts:16-18 | the visible rows are always a prefix of the data: all of it when expanded, the first min(n, k) otherwise |
| ExpandableTable.Hook | hooks/useExpandableTable.ts:13-31 | the expand button shows exactly when there are more rows than the default, and the total is the row count |
| ExpandableTable.Toggle | hooks/useExpandableTable.ts:20 | toggling always changes the expansion state |
| ExpandableTable.ExpandButtonIffViewsDiffer | hooks/useExpandableTable.ts:16-22 | the button shows exactly when expanding reveals more rows; without it both views are the whole table |
| ExpandableTable.ToggleTwiceRestores | hooks/useExpandableTable.ts:3-20 | toggling twice restores the view; the initial view shows at most 3 rows |
| PositionFormatting.GetDisplayDecimals | utils/positionFormatting.ts:4-8 | input decimals are 2 exactly for JUSD or DEURO in any letter case, else 8 |
| PositionFormatting.GetDisplayDecimalsForDisplay | utils/positionFormatting.ts:10-14 | display decimals are 2 exactly for JUSD, DEURO or USD in any letter case, else 3 |
| PositionFormatting.DisplayNeverFinerThanInput | utils/positionFormatting.ts:4-14 | a unit is never displayed with more decimals than it is entered with; the tables differ only for USD and non-stablecoins |
| PositionFormatting.CaseNeverMatters | utils/positionFormatting.ts:4-14 | any two spellings of a unit that differ only in letter case get the same input decimals and the same display decimals |
| PositionFormatting.CaseInsensitiveExamples | utils/positionFormatting.ts:4-14 | "jusd", "Deuro" and "usd" are stablecoins; "wcbtc" is not |
| PositionFormatting.FormatPositionDelta | utils/positionFormatting.ts:16-25 | zero renders "No change"; otherwise the magnitude is rendered by `FormatPositionValue` (lines 16-19: value, a space, the unit), prefixed with "+" exactly for an increase |
| PositionFormatting.DeltaSignSymmetry | utils/positionFormatting.ts:21-25 | an increase renders as "+" followed by exactly the rendering of the equal decrease |
| Footer.DocsSuffix | components/Footer.tsx:15-23 | the suffix is from the fixed set; exactly "/mint/create" gets "/positions/open"; any other mint path gets "/positions/clone" |
| Footer.DynamicDocs | components/Footer.tsx:9-26 | the link always starts with the docs URL and appends at most one suffix from the fixed set; a missing path gives the bare link |
| Footer.DocsFollowRuleTable | components/Footer.tsx:17-23 | outside the mint pages, the link follows the first matching rule of the ordered rule table |
| Footer.DocsExamples | components/Footer.tsx:13-16 | sample paths: "/mint/create" opens a position, "/mint/0x12" clones one, no path gives the bare docs |
| Footer.DisplayedCode | components/Footer.tsx:31-33 | a set marketing code wins; otherwise the shortened frontend code shows only when it is set and neither reserved code; nothing empty is ever shown |
| AppConfig.ConfigChain | app.config.ts:16-18 | the chain is testnet exactly when the configuration says "testnet" |
| AppConfig.ConfigRpc | app.config.ts:21-23 | the RPC endpoint always belongs to the selected chain |
| AppConfig.PonderUrl | app.config.ts:28-30 | the fallback indexer is used exactly while a set window has not yet closed |
| AppConfig.ActivateFallback | app.config.ts:32-37 | activation opens a ten-minute window when none is set and never touches a set one |
| AppConfig.OnError | app.config.ts:52-73 | no network error, or a fallback already in use, changes nothing; otherwise the fallback is activated and the operation retried |
| AppConfig.FirstErrorOpensWindow | app.config.ts:28-73 | the first network error switches to the fallback for the next ten minutes and retries |
| AppConfig.WindowNeverReopens | app.config.ts:32-37 | once the window has closed, later network errors neither reopen nor extend it |
| AppConfig.StatusIrrelevant | app.config.ts:54-73 | a 503 status is handled exactly like any other network error |
| AppConfig.NotBlacklisted | app.config.ts:129-134 | an address passes exactly when no blacklist entry equals it ignoring case |
| AppConfig.NothingBlacklisted | app.config.ts:128-134 | the shipped blacklist is empty, so every address passes |
| SelectAssetModal.GetDisplayPrecision | components/PageEquity/SelectAssetModal.tsx:6-10 | precision is (2, 2) exactly for JUSD, DEURO, USD or SJUSD in any letter case, and (3, 3) for every other or missing symbol |
| SelectAssetModal.FindBySymbol | components/PageEquity/SelectAssetModal.tsx:27 | the lookup finds the first entry with exactly that symbol, and none exactly when no entry has it |
| SelectAssetModal.GetPriceBySymbol | components/PageEquity/SelectAssetModal.tsx:26-30 | "--" when no entry has exactly that symbol; otherwise the first such entry's balance (0 when missing), rendered at the symbol's precision |
| SelectAssetModal.BalanceOf | components/PageEquity/SelectAssetModal.tsx:36 | an option's balance is the first matching entry's, 0 when there is none or it is missing |
| SelectAssetModal.Options | components/PageEquity/SelectAssetModal.tsx:32-48 | always three options, in the order token, pool share, savings vault, with their names and looked-up balances |
| SelectAssetModal.EmptyWallet | components/PageEquity/SelectAssetModal.tsx:26-48 | without balances every option shows 0 and the price cell "--" |
| SelectAssetModal.LookupIsCaseSensitive | components/PageEquity/SelectAssetModal.tsx:6-30 | for any balance list, a case variant of a symbol that no entry spells exactly finds nothing ("--" and balance 0), yet gets the same precision as the symbol |
| SelectAssetModal.LookupCaseExample | components/PageEquity/SelectAssetModal.tsx:6-30 | an entry "jusd" is not found under "JUSD", although both spellings get precision (2, 2) |
| BonusHistoryTable.OnTabClick | components/PageReferrals/BonusHistoryTable.tsx:59-68 | the current column flips the order; another column is selected, reversed exactly when it is the source column |
| BonusHistoryTable.ClickTwiceRestores | components/PageReferrals/BonusHistoryTable.tsx:59-61 | clicking the current column twice restores the state |
| BonusHistoryTable.SortBonusHistory | components/PageReferrals/BonusHistoryTable.tsx:129-147 | the result is a permutation of the rows: payouts largest first and text columns in collation order, or the opposite when reversed |
| BonusHistoryTable.FreshColumnOrder | components/PageReferrals/BonusHistoryTable.tsx:59-68 | a newly chosen column shows payouts largest first, sources in reverse collation order, dates and ids in collation order |
| GovernanceVotersTable.OnTabClick | components/PageGovernance/GovernanceVotersTable.tsx:85-92 | the current column flips the order; another column is selected in its own order |
| GovernanceVotersTable.MatchingVotes | components/PageGovernance/GovernanceVotersTable.tsx:74 | no kept voter is the account ignoring case, every other voter is kept as often as it occurs, and without an account all voters are kept |
| GovernanceVotersTable.MatchingKeepsOrder | components/PageGovernance/GovernanceVotersTable.tsx:74 | removing the account commutes with concatenation, so the kept voters stay in order |
| GovernanceVotersTable.SortVotes | components/PageGovernance/GovernanceVotersTable.tsx:147-158 | the result is a permutation: addresses in collation order, balances and voting power largest first, or the opposite when reversed |
| GovernanceVotersTable.ListedVotersExcludeAccount | components/PageGovernance/GovernanceVotersTable.tsx:74-81 | the sorted list never shows the connected account and shows every other voter as often as the data holds it |

## Left out

- utils/positionSolver is not part of this model. `solveManage` and `getStrategiesForTarget` are uninterpreted parameters, so no property depends on what they compute.
- Contract writes, receipt waiting, toasts, Redux dispatches, `approveToken`, `handleLoanExecute`, HTTP and GraphQL fetches, and console logging are I/O. Only the decision of which calls happen, and in what order, is modelled.
- The default-position fetch in `useReferencePosition` (lines 16-31) is I/O. Its result appears only as the ignored `storeDefault` parameter.
- The wizard's Confirm button only logs the outcome, so it is not an event of the model.
- The display-only values are not modelled: the loan form's strategy hints (lines 89-90), summary tables and principal lines, and units from `normalizeTokenSymbol`, which is not part of this model.
- `formatCurrency`, `formatUnits`, `shortenHash` and i18n are foreign library calls. They are parameters or left out. `toDateString` date formatting in the bonus table is left out.
- Sort keys from `Number`, `parseInt`, the floating-point voting-power ratio and `localeCompare` are abstract integer keys. Precision loss of these conversions is not modelled.
- The sort contracts state permutation and order, not which of several equal-key rows comes first.
- AdjustLiqPrice.SetDelta: accepts any natural amount. The slider on line 163 passes its value through `roundToWholeUnits(val, priceDecimals)`, which is not part of this model, so the model also admits sub-unit amounts the slider likely cannot produce. The all-input lemmas cover whole-unit amounts as a special case. Both Findings rows are shown on whole-unit amounts (AdjustLiqPrice.WholeUnitRemovalUndercollateralizes, AdjustLiqPrice.WholeUnitDecreaseUndercollateralizes). The sub-unit witnesses (delta 1 or 666666666666666667) may not be reachable through the slider.
- The account-pinning pass of `sortVotes` (lines 160-162) is left out. Its comparator is not a consistent order, and it never matches because line 74 has already removed the account. With a connected account, its comparator on line 161 returns 1 for every pair, so the displayed order is whatever the JavaScript engine makes of that comparator and is not guaranteed to be `SortVotes`'s.
- The connected account's own row and its `relativeVotes` fetch in the governance table are I/O with floating point.
- Case folding (`Text.Lower`, `Text.Upper`) covers ASCII letters only. JavaScript's `toLowerCase`/`toUpperCase` also fold other scripts.
- Amount fields are parsed naturals (`Option<nat>`, `None` for empty), so text that `BigInt` rejects cannot be represented. Two spellings of one number (for example "01" and "1") are one state here, although the source's effects fire on any change of the text.
- AdjustLoan.LoanOutcome: the model does not cover amount text that `BigInt` rejects. In the source, `BigInt(deltaAmount || 0)` runs outside any `try`: during render on line 84 (and on line 63 of AdjustLiqPrice.tsx), and in the amount-error effect on line 142. Such text therefore crashes the form instead of leaving no outcome. A throwing solver on lines 87-88 is modelled by `AdjustLoan.RenderThrows`.
- Column headers are translated strings in the source and enumerations here. The model assumes the translations of one table's headers are distinct. The source stores the header string as the current tab, so after a language change the stored tab matches no header, and `sortBonusHistory`/`sortVotes` leave the rows unsorted until a header is clicked. The model has no language and does not show this.
- ExpandableTable.VisibleData: the row count is a natural number. `slice` with a negative or fractional count is not modelled.
- ValidReferencePosition.Select: the source's sort comparator never returns 0, so which of several equally priced positions comes first depends on the engine. The contract promises a position of the highest price; the model's loop returns the first one.
- Savings and lead-rate tables, utils/coinLendingGatewayV2.ts, redux/slices/prices.slice.ts, utils/collateralizationPercentage.ts, pages, SEO, environment configuration, client construction (wagmi, Apollo, axios) and the end-to-end tests are not part of this model. They are rendering, static tables, floating point or I/O.

## Findings

| source | as written | input that shows it | evidently intended | confidence | as-written member | corrected member |
|---|---|---|---|---|---|---|
| components/PageMint/AdjustLiqPrice.tsx:73-79 | `minCollateralNeeded` rounds `debt * 10^18 / newPrice` down, and `collateralToRemove` leaves only that much (or the minimum collateral) | in whole price units (one unit is 10^18): collateral 10^18, debt 10^18, price 2 · 10^18, increase by one unit with collateral removal: 666666666666666667 is removed, and 333333333333333333 · 3 · 10^18 < 10^36. Sub-unit amounts show more: collateral 1, debt 1, price 10^18, increase by 1 withdraws all collateral | leave the rounded-up requirement, so the position stays covered at the new price (666666666666666666 removed) | high for the arithmetic, not executed | AdjustLiqPrice.CollateralToRemoveAsWritten, used by `AdjustLiqPrice.Plan` with `Floor` (shown by AdjustLiqPrice.WholeUnitRemovalUndercollateralizes, AdjustLiqPrice.RemovalAsWrittenUndercollateralizes and AdjustLiqPrice.PlanAsWrittenStrandsDebt) | AdjustLiqPrice.CollateralToRemove, used by `AdjustLiqPrice.Plan` with `Ceil` (proved by AdjustLiqPrice.PlanKeepsPositionCovered) |
| components/PageMint/AdjustLiqPrice.tsx:85-92 | `minPriceForDecrease` rounds `debt * 10^18 / collateral` down, so when the collateral does not divide `debt * 10^18` the decrease bound reaches one unit too far | in whole price units: collateral 3 · 10^18, debt 10^18, price 10^18 + 333333333333333333, decrease by one unit (10^18) to 333333333333333333: accepted, and 3 · 10^18 · 333333333333333333 < 10^36 | bound the decrease by the rounded-up floor price, so an accepted decrease keeps the position covered | high for the arithmetic, not executed | AdjustLiqPrice.MinPriceForDecreaseAsWritten, used by `AdjustLiqPrice.IsDisabled` with `Floor` (shown by AdjustLiqPrice.WholeUnitDecreaseUndercollateralizes, AdjustLiqPrice.DecreaseAsWrittenUndercollateralizes, AdjustLiqPrice.DisabledAsWrittenIff and AdjustLiqPrice.FloorsAgreeIffDivisible) | AdjustLiqPrice.MinPriceForDecrease, used by `AdjustLiqPrice.IsDisabled` with `Ceil` (proved by AdjustLiqPrice.AcceptedDecreaseRespectsFloor, AdjustLiqPrice.DisabledIff and AdjustLiqPrice.PlanKeepsPositionCovered) |

=== FILE: adjust_liq_price.dfy ===
/** The liquidation-price adjustment form of the mint page
    (components/PageMint/AdjustLiqPrice.tsx): exact BigInt arithmetic on a
    position's collateral, debt and liquidation price, the slider bound,
    the collateral a price rise frees, the lowest price a decrease may
    reach, the gates on the execute button and the ordered action plan.

    Two of the source's quantities are computed with truncating division
    where the collateralization invariant needs rounding up: the members
    suffixed `AsWritten` model the source's formulas, the unsuffixed ones
    the corrected formulas. The gates and the plan take the rounding as a
    parameter: `Floor` is the form as written, `Ceil` the corrected one. */
module AdjustLiqPrice {
  import opened Common

  /** The single strategy the form offers. */
  datatype AdjustStrategy = RemoveCollateral

  /** What the form reads from its props: the current liquidation price,
      the position's minimum collateral (`"0"` when unset) and the solver
      snapshot's collateral and debt. */
  datatype Props = Props(
    positionPrice: nat,
    minimumCollateral: nat,
    collateral: nat,
    debt: nat,
    isInCooldown: bool)

  /** The form's state: direction, entered amount (an empty field reads as
      0) and the chosen strategy. */
  datatype Form = Form(isIncrease: bool, delta: nat, strategy: Option<AdjustStrategy>)

  /** The contract calls `handleExecute` issues, in order. */
  datatype Action = WithdrawCollateral(amount: nat) | AdjustPrice(price: int)

  const InitialForm: Form := Form(true, 0, None)

  // ---------------------------------------------------------------------
  // Price arithmetic

  /** The price the form proposes: the current price moved by `delta` in the
      chosen direction (a decrease may go below zero; the gates below stop
      it from being submitted). */
  function NewPrice(p: Props, f: Form): (r: int)
    ensures f.isIncrease ==> r >= p.positionPrice && r - p.positionPrice == f.delta
    ensures !f.isIncrease ==> r <= p.positionPrice && p.positionPrice - r == f.delta
  {
    if f.isIncrease then p.positionPrice + f.delta else p.positionPrice - f.delta
  }

  /** The price at which the minimum collateral alone still covers the debt,
      or twice the current price when there is no floor or no debt. */
  function MaxPriceByCollateral(p: Props): nat {
    if p.minimumCollateral > 0 && p.debt > 0 then ScaledQuotient(p.debt, p.minimumCollateral)
    else 2 * p.positionPrice
  }

  /** The slider's upper bound: the room up to `MaxPriceByCollateral`, but
      never more than the current price. */
  function MaxDelta(p: Props): (r: nat)
    ensures r <= p.positionPrice
    ensures r <= Max(0, MaxPriceByCollateral(p) - p.positionPrice)
    ensures r == p.positionPrice || r == Max(0, MaxPriceByCollateral(p) - p.positionPrice)
    ensures p.minimumCollateral == 0 || p.debt == 0 ==> r == p.positionPrice
  {
    var room := if MaxPriceByCollateral(p) > p.positionPrice then MaxPriceByCollateral(p) - p.positionPrice else 0;
    if room < p.positionPrice then room else p.positionPrice
  }

  /** Within the slider, the debt still needs at least the minimum
      collateral at the new price: the bound is exactly the price at which
      the minimum-collateral floor stops binding. */
  lemma SliderBoundKeepsFloor(p: Props, f: Form)
    requires f.isIncrease && 0 < f.delta <= MaxDelta(p)
    requires p.minimumCollateral > 0 && p.debt > 0
    ensures p.minimumCollateral * NewPrice(p, f) <= p.debt * SCALE
    ensures MinCollateralNeededAsWritten(p, f) >= p.minimumCollateral
  {
    var m := p.minimumCollateral;
    var q := NewPrice(p, f);
    var bound := ScaledQuotient(p.debt, m);
    assert q <= bound;
    MulMonotone(m, q, bound);
    assert m * bound == bound * m;
    var k := MinCollateralNeededAsWritten(p, f);
    LessFromProducts(m, k + 1, q);
  }

  // ---------------------------------------------------------------------
  // Collateral freed by a price increase

  /** The source's `minCollateralNeeded` (line 73): debt at the new price,
      rounded DOWN. */
  function MinCollateralNeededAsWritten(p: Props, f: Form): (r: nat)
    ensures NewPrice(p, f) > 0 && p.debt > 0 ==>
              r * NewPrice(p, f) <= p.debt * SCALE < (r + 1) * NewPrice(p, f)
    ensures !(NewPrice(p, f) > 0 && p.debt > 0) ==> r == 0
  {
    var q := NewPrice(p, f);
    if q > 0 && p.debt > 0 then ScaledQuotient(p.debt, q) else 0
  }

  /** The least collateral that covers the debt at the new price (rounded
      UP), 0 when there is no debt or no positive price. */
  function RequiredCollateral(p: Props, f: Form): (r: nat)
    ensures NewPrice(p, f) > 0 && p.debt > 0 ==>
              Covered(r, p.debt, NewPrice(p, f)) && !Covered(r - 1, p.debt, NewPrice(p, f))
    ensures !(NewPrice(p, f) > 0 && p.debt > 0) ==> r == 0
  {
    var q := NewPrice(p, f);
    if q > 0 && p.debt > 0 then CollateralFor(p.debt, q) else 0
  }

  /** The source's `collateralToRemove` (lines 75-79), with the rounded-down
      requirement. */
  function CollateralToRemoveAsWritten(p: Props, f: Form): (r: nat)
    ensures !f.isIncrease || f.delta == 0 ==> r == 0
    ensures r <= p.collateral
    ensures r > 0 ==> p.collateral - r == Max(MinCollateralNeededAsWritten(p, f), p.minimumCollateral)
    ensures f.isIncrease && f.delta > 0 && r == 0 ==>
              p.collateral <= Max(MinCollateralNeededAsWritten(p, f), p.minimumCollateral)
  {
    if !f.isIncrease || f.delta == 0 then 0
    else
      var minRequired := Max(MinCollateralNeededAsWritten(p, f), p.minimumCollateral);
      if p.collateral > minRequired then p.collateral - minRequired else 0
  }

  /** The collateral a price increase frees: everything above both the
      minimum collateral and the collateral the debt needs at the new price.
      What stays behind covers the debt at the new price. */
  function CollateralToRemove(p: Props, f: Form): (r: nat)
    ensures !f.isIncrease || f.delta == 0 ==> r == 0
    ensures r <= p.collateral
    ensures r > 0 ==> p.collateral - r == Max(RequiredCollateral(p, f), p.minimumCollateral)
    ensures r > 0 ==> p.collateral - r >= p.minimumCollateral
    ensures r > 0 ==> Covered(p.collateral - r, p.debt, NewPrice(p, f))
    ensures f.isIncrease && f.delta > 0 && r == 0 ==>
              p.collateral <= Max(RequiredCollateral(p, f), p.minimumCollateral)
  {
    if !f.isIncrease || f.delta == 0 then 0
    else
      var minRequired := Max(RequiredCollateral(p, f), p.minimumCollateral);
      if p.collateral > minRequired then
        assert Covered(minRequired, p.debt, NewPrice(p, f)) by {
          if p.debt > 0 {
            CoveredMonotone(RequiredCollateral(p, f), minRequired, p.debt, NewPrice(p, f), NewPrice(p, f));
          }
        }
        p.collateral - minRequired
      else 0
  }

  /** The corrected amount never exceeds the source's, and falls short of it
      by at most one unit; the remainder it leaves is always at least the
      rounded-down requirement. */
  lemma RemovalRoundingGap(p: Props, f: Form)
    ensures CollateralToRemove(p, f) <= CollateralToRemoveAsWritten(p, f) <= CollateralToRemove(p, f) + 1
    ensures CollateralToRemove(p, f) > 0 ==>
              p.collateral - CollateralToRemove(p, f) >= MinCollateralNeededAsWritten(p, f)
  {
    var q := NewPrice(p, f);
    if q > 0 && p.debt > 0 {
      ScaledQuotientBelowCeil(p.debt, q);
    }
  }

  /** The source's removal can leave a position its debt exceeds at the new
      price: collateral 10^18, debt 1, price 2 raised by 1 to 3 (within the
      slider) frees 666666666666666667, and the 333333333333333333 left
      times 3 is one short of 10^18. */
  lemma RemovalAsWrittenUndercollateralizes()
    ensures var p := Props(2, 0, SCALE, 1, false);
            var f := Form(true, 1, Some(RemoveCollateral));
            && Covered(p.collateral, p.debt, p.positionPrice)
            && f.delta <= MaxDelta(p)
            && CollateralToRemoveAsWritten(p, f) == 666666666666666667
            && !Covered(p.collateral - CollateralToRemoveAsWritten(p, f), p.debt, NewPrice(p, f))
            && CollateralToRemove(p, f) == 666666666666666666
  {
    var p := Props(2, 0, SCALE, 1, false);
    var f := Form(true, 1, Some(RemoveCollateral));
    assert NewPrice(p, f) == 3;
    assert MinCollateralNeededAsWritten(p, f) == 333333333333333333;
    assert RequiredCollateral(p, f) == 333333333333333334;
  }

  // ---------------------------------------------------------------------
  // The floor a decrease may reach

  /** The source's `minPriceForDecrease` (lines 85-88): debt per unit of
      collateral, rounded DOWN. */
  function MinPriceForDecreaseAsWritten(p: Props): (r: nat)
    ensures p.collateral > 0 && p.debt > 0 ==>
              r * p.collateral <= p.debt * SCALE < (r + 1) * p.collateral
    ensures !(p.collateral > 0 && p.debt > 0) ==> r == 0
  {
    if p.collateral > 0 && p.debt > 0 then ScaledQuotient(p.debt, p.collateral) else 0
  }

  /** The least price at which the current collateral covers the current
      debt (rounded UP), 0 when there is no collateral or no debt. */
  function MinPriceForDecrease(p: Props): (r: nat)
    ensures p.collateral > 0 && p.debt > 0 ==>
              Covered(p.collateral, p.debt, r) && !Covered(p.collateral, p.debt, r - 1)
    ensures !(p.collateral > 0 && p.debt > 0) ==> r == 0
  {
    if p.collateral > 0 && p.debt > 0 then PriceFor(p.debt, p.collateral) else 0
  }

  /** How far a decrease may move the price: down to the floor, and not at
      all when the price is already at or below it. */
  function MaxDeltaDecreaseFrom(positionPrice: nat, minPrice: nat): (r: nat)
    ensures r <= positionPrice
    ensures r == Max(0, positionPrice - minPrice)
  {
    if positionPrice > minPrice then positionPrice - minPrice else 0
  }

  /** Which division the gates and the plan are built on: `Floor` is the
      source's truncating division (lines 73 and 85-88), `Ceil` the
      corrected rounding up. */
  datatype Rounding = Floor | Ceil

  /** `collateralToRemove` under the chosen rounding. */
  function Removal(p: Props, f: Form, rd: Rounding): nat {
    if rd == Floor then CollateralToRemoveAsWritten(p, f) else CollateralToRemove(p, f)
  }

  /** `minPriceForDecrease` under the chosen rounding. */
  function DecreaseFloor(p: Props, rd: Rounding): nat {
    if rd == Floor then MinPriceForDecreaseAsWritten(p) else MinPriceForDecrease(p)
  }

  /** `maxDeltaDecrease` (line 89) under the chosen rounding. */
  function DecreaseBound(p: Props, rd: Rounding): nat {
    MaxDeltaDecreaseFrom(p.positionPrice, DecreaseFloor(p, rd))
  }

  /** The source's decrease bound admits a price at which the debt is no
      longer covered: collateral 3, debt 1, price 10^18 may drop by
      666666666666666667 to 333333333333333333, and 3 times that is one
      short of 10^18. The source enables the button there; the corrected
      gate does not. */
  lemma DecreaseAsWrittenUndercollateralizes()
    ensures var p := Props(SCALE, 0, 3, 1, false);
            var f := Form(false, 666666666666666667, None);
            && Covered(p.collateral, p.debt, p.positionPrice)
            && f.delta <= DecreaseBound(p, Floor)
            && !Covered(p.collateral, p.debt, NewPrice(p, f))
            && f.delta > DecreaseBound(p, Ceil)
            && !IsDisabled(p, f, Floor) && IsDisabled(p, f, Ceil)
  {
    var p := Props(SCALE, 0, 3, 1, false);
    assert MinPriceForDecreaseAsWritten(p) == 333333333333333333;
    assert MinPriceForDecrease(p) == 333333333333333334;
  }

  // ---------------------------------------------------------------------
  // Gates on the execute button (lines 81-92 and 142)

  predicate CanRemoveCollateral(p: Props, f: Form, rd: Rounding) {
    Removal(p, f, rd) > 0
  }

  /** A strategy choice is required when an increase frees collateral. */
  predicate NeedsStrategy(p: Props, f: Form, rd: Rounding) {
    f.isIncrease && f.delta > 0 && CanRemoveCollateral(p, f, rd)
  }

  predicate HasValidStrategy(p: Props, f: Form, rd: Rounding) {
    !NeedsStrategy(p, f, rd) || f.strategy.Some?
  }

  predicate IsBlockedByCooldown(p: Props, f: Form) {
    p.isInCooldown && f.isIncrease && f.delta > 0
  }

  predicate IsDecreaseInvalid(p: Props, f: Form, rd: Rounding) {
    !f.isIncrease && f.delta > DecreaseBound(p, rd)
  }

  predicate IsDisabled(p: Props, f: Form, rd: Rounding) {
    f.delta == 0 || IsBlockedByCooldown(p, f) || IsDecreaseInvalid(p, f, rd) || !HasValidStrategy(p, f, rd)
  }

  /** When the collateral divides `debt * 10^18` the two floor prices
      coincide, so the source's decrease gate is exact there; otherwise the
      source's floor is one unit below the covering price. */
  lemma FloorsAgreeIffDivisible(p: Props)
    requires p.collateral > 0 && p.debt > 0
    ensures MinPriceForDecreaseAsWritten(p) == MinPriceForDecrease(p) <==> (p.debt * SCALE) % p.collateral == 0
    ensures MinPriceForDecreaseAsWritten(p) != MinPriceForDecrease(p) ==>
              MinPriceForDecrease(p) == MinPriceForDecreaseAsWritten(p) + 1
  {
    FloorBelowCeil(p.debt * SCALE, p.collateral);
  }

  /** At the boundary both gates agree: collateral 1, debt 1, price 10^18
      may not drop by 1, although the debt is exactly covered at 10^18. */
  lemma DecreaseBoundaryExample()
    ensures var p := Props(SCALE, 0, 1, 1, false);
            var f := Form(false, 1, None);
            && Covered(p.collateral, p.debt, p.positionPrice)
            && IsDisabled(p, f, Floor) && IsDisabled(p, f, Ceil)
  {
    var p := Props(SCALE, 0, 1, 1, false);
    assert MinPriceForDecreaseAsWritten(p) == SCALE;
    FloorsAgreeIffDivisible(p);
  }

  /** A nonzero decrease is rejected exactly when it goes below the floor
      price. */
  lemma DecreaseInvalidIffBelowFloor(p: Props, f: Form, rd: Rounding)
    requires !f.isIncrease && f.delta > 0
    ensures IsDecreaseInvalid(p, f, rd) <==> NewPrice(p, f) < DecreaseFloor(p, rd)
  {
  }

  /** The decrease gate in terms of coverage. With the corrected rounding a
      nonzero decrease is rejected exactly when the new price is negative or
      the collateral would no longer cover the debt there. As written it is
      rejected when the new price is negative or the collateral is worth at
      most the debt one unit above the new price (`c * (q + 1) <= d * 10^18`),
      which still includes prices where the debt is exactly covered. */
  lemma DecreaseGateIff(p: Props, f: Form)
    requires !f.isIncrease && f.delta > 0
    ensures IsDecreaseInvalid(p, f, Ceil) <==>
              NewPrice(p, f) < 0 || (p.collateral > 0 && !Covered(p.collateral, p.debt, NewPrice(p, f)))
    ensures IsDecreaseInvalid(p, f, Floor) <==>
              NewPrice(p, f) < 0
              || (p.collateral > 0 && p.debt > 0 && p.collateral * (NewPrice(p, f) + 1) <= p.debt * SCALE)
  {
    var q := NewPrice(p, f);
    var c := p.collateral;
    DecreaseInvalidIffBelowFloor(p, f, Ceil);
    DecreaseInvalidIffBelowFloor(p, f, Floor);
    if q >= 0 && c > 0 {
      if p.debt > 0 {
        var m := MinPriceForDecrease(p);
        if q < m {
          if Covered(c, p.debt, q) {
            CoveredMonotone(c, c, p.debt, q, m - 1);
          }
        } else {
          CoveredMonotone(c, c, p.debt, m, q);
        }
        var k := MinPriceForDecreaseAsWritten(p);
        if q < k {
          MulMonotone(c, q + 1, k);
          assert c * k == k * c;
        } else if c * (q + 1) <= p.debt * SCALE {
          assert (q + 1) * c < (k + 1) * c;
          LessFromProducts(q + 1, k + 1, c);
        }
      } else {
        MulMonotone(c, 0, q);
      }
    }
  }

  /** The strategy gate in terms of coverage. An increase needs the strategy
      choice exactly when collateral above the minimum can be freed: with
      the corrected rounding, when one unit less would still cover the debt
      at the new price; as written, already when the collateral is worth
      strictly more than the debt at the new price. */
  lemma RemovalGateIff(p: Props, f: Form)
    requires f.isIncrease && f.delta > 0
    ensures NeedsStrategy(p, f, Ceil) <==>
              p.collateral > p.minimumCollateral && Covered(p.collateral - 1, p.debt, NewPrice(p, f))
    ensures NeedsStrategy(p, f, Floor) <==>
              p.collateral > p.minimumCollateral && p.debt * SCALE < p.collateral * NewPrice(p, f)
  {
    var q := NewPrice(p, f);
    var c := p.collateral;
    assert q > 0;
    if c > p.minimumCollateral {
      if p.debt > 0 {
        var req := RequiredCollateral(p, f);
        if c - 1 < req {
          if Covered(c - 1, p.debt, q) {
            CoveredMonotone(c - 1, req - 1, p.debt, q, q);
          }
        } else {
          CoveredMonotone(req, c - 1, p.debt, q, q);
        }
        var k := MinCollateralNeededAsWritten(p, f);
        if c > k {
          MulMonotone(q, k + 1, c);
          assert (k + 1) * q == q * (k + 1) && c * q == q * c;
        } else {
          MulMonotone(q, c, k);
          assert k * q == q * k && c * q == q * c;
        }
      } else {
        MulMonotone(q, 0, c - 1);
        MulMonotone(q, 1, c);
        assert c * q == q * c && (c - 1) * q == q * (c - 1);
      }
    }
  }

  /** The execute button (line 142), corrected: disabled exactly for a zero
      amount, an increase during the cooldown, a decrease to a price at
      which the collateral would not cover the debt, or an increase without
      a strategy while one unit less collateral would still cover the debt
      at the new price and keep the minimum. */
  lemma DisabledIff(p: Props, f: Form)
    ensures var q := NewPrice(p, f);
            IsDisabled(p, f, Ceil) <==>
              || f.delta == 0
              || (f.isIncrease && p.isInCooldown)
              || (!f.isIncrease && (q < 0 || (p.collateral > 0 && !Covered(p.collateral, p.debt, q))))
              || (f.isIncrease && f.strategy.None? && p.collateral > p.minimumCollateral
                  && Covered(p.collateral - 1, p.debt, q))
  {
    if f.delta > 0 {
      if f.isIncrease { RemovalGateIff(p, f); } else { DecreaseGateIff(p, f); }
    }
  }

  /** The execute button as line 142 computes it: a decrease is rejected
      when the collateral is worth at most the debt one unit above the new
      price, so when the collateral does not divide `debt * 10^18` it is let
      through one unit below the covering price; an increase asks for the
      strategy as soon as the collateral is above the minimum and worth
      strictly more than the debt at the new price. */
  lemma DisabledAsWrittenIff(p: Props, f: Form)
    ensures var q := NewPrice(p, f);
            IsDisabled(p, f, Floor) <==>
              || f.delta == 0
              || (f.isIncrease && p.isInCooldown)
              || (!f.isIncrease && (q < 0 || (p.collateral > 0 && p.debt > 0
                                               && p.collateral * (q + 1) <= p.debt * SCALE)))
              || (f.isIncrease && f.strategy.None? && p.collateral > p.minimumCollateral
                  && p.debt * SCALE < p.collateral * q)
  {
    if f.delta > 0 {
      if f.isIncrease { RemovalGateIff(p, f); } else { DecreaseGateIff(p, f); }
    }
  }

  /** The cooldown only ever blocks a nonzero increase; a decrease is never
      held back by it. */
  lemma CooldownOnlyBlocksIncreases(p: Props, f: Form, rd: Rounding)
    ensures IsBlockedByCooldown(p, f) ==> f.isIncrease && f.delta > 0
    ensures !f.isIncrease ==> !IsBlockedByCooldown(p, f)
    ensures !f.isIncrease && f.delta > 0 && !IsDecreaseInvalid(p, f, rd) ==> !IsDisabled(p, f, rd)
  {
  }

  /** With the corrected rounding, an accepted decrease is nonzero and lands
      at or above the floor price, and never below zero. */
  lemma AcceptedDecreaseRespectsFloor(p: Props, f: Form)
    requires !f.isIncrease && !IsDisabled(p, f, Ceil)
    ensures NewPrice(p, f) >= MinPriceForDecrease(p)
    ensures NewPrice(p, f) >= 0
    ensures f.delta > 0
  {
  }

  // ---------------------------------------------------------------------
  // The action plan and what it does to the position

  /** The calls `handleExecute` makes once it goes ahead (lines 108-126):
      the collateral withdrawal first, when an increase chose to remove
      collateral, then the price adjustment. */
  function Plan(p: Props, f: Form, rd: Rounding): (r: seq<Action>)
    ensures 1 <= |r| <= 2
    ensures r[|r| - 1] == AdjustPrice(NewPrice(p, f))
    ensures |r| == 2 <==> f.isIncrease && f.strategy == Some(RemoveCollateral) && Removal(p, f, rd) > 0
    ensures |r| == 2 ==> r[0] == WithdrawCollateral(Removal(p, f, rd))
  {
    if f.isIncrease && f.strategy == Some(RemoveCollateral) && Removal(p, f, rd) > 0 then
      [WithdrawCollateral(Removal(p, f, rd)), AdjustPrice(NewPrice(p, f))]
    else [AdjustPrice(NewPrice(p, f))]
  }

  /** `handleExecute`: nothing happens without a connected wallet or with an
      empty amount; otherwise the plan runs. */
  function HandleExecute(p: Props, f: Form, walletConnected: bool, rd: Rounding): (r: Option<seq<Action>>)
    ensures r.Some? <==> walletConnected && f.delta != 0
    ensures r.Some? ==> r.value == Plan(p, f, rd)
  {
    if !walletConnected || f.delta == 0 then None else Some(Plan(p, f, rd))
  }

  /** Collateral and price after running `plan` in order. */
  function ApplyPlan(collateral: int, price: int, plan: seq<Action>): (int, int)
    decreases |plan|
  {
    if plan == [] then (collateral, price)
    else
      match plan[0]
      case WithdrawCollateral(a) => ApplyPlan(collateral - a, price, plan[1..])
      case AdjustPrice(q) => ApplyPlan(collateral, q, plan[1..])
  }

  /** With the corrected rounding a covered position stays covered: whatever
      plan the form can submit, the position it leaves has the new price,
      non-negative collateral that covers the debt at that price, and keeps
      the minimum collateral while there is debt. */
  lemma PlanKeepsPositionCovered(p: Props, f: Form)
    requires Covered(p.collateral, p.debt, p.positionPrice)
    requires p.debt > 0 ==> p.collateral >= p.minimumCollateral
    requires !IsDecreaseInvalid(p, f, Ceil)
    ensures var (c, q) := ApplyPlan(p.collateral, p.positionPrice, Plan(p, f, Ceil));
            && q == NewPrice(p, f) && q >= 0 && c >= 0
            && Covered(c, p.debt, q)
            && (p.debt > 0 ==> c >= p.minimumCollateral)
  {
    var plan := Plan(p, f, Ceil);
    var q := NewPrice(p, f);
    if |plan| == 2 {
      var c := CollateralToRemove(p, f);
      ApplyTwoSteps(p.collateral, p.positionPrice, c, q);
    } else {
      ApplyOneStep(p.collateral, p.positionPrice, q);
      if f.isIncrease {
        CoveredMonotone(p.collateral, p.collateral, p.debt, p.positionPrice, q);
      } else {
        DecreaseStaysCovered(p, f);
      }
    }
  }

  /** The plan is safe only as a whole: between its two calls the position
      has lost the collateral but still has the old price. The collateral
      left then covers the debt at the new price and keeps the minimum, but
      nothing is promised at the old price. */
  lemma AfterWithdrawal(p: Props, f: Form)
    requires |Plan(p, f, Ceil)| == 2
    ensures var w := CollateralToRemove(p, f);
            && ApplyPlan(p.collateral, p.positionPrice, Plan(p, f, Ceil)[..1]) == (p.collateral - w, p.positionPrice)
            && p.collateral - w >= p.minimumCollateral
            && Covered(p.collateral - w, p.debt, NewPrice(p, f))
  {
    var w := CollateralToRemove(p, f);
    var first := Plan(p, f, Ceil)[..1];
    assert first == [WithdrawCollateral(w)];
    assert first[1..] == [];
  }

  /** Collateral 10^18, debt 1, price 2 raised by 1 with removal: after the
      withdrawal the 333333333333333334 left covers the debt at the new
      price 3 but not at the price 2 the position still has. */
  lemma WithdrawalUncoveredAtOldPrice()
    ensures var p := Props(2, 0, SCALE, 1, false);
            var f := Form(true, 1, Some(RemoveCollateral));
            && Covered(p.collateral, p.debt, p.positionPrice)
            && !IsDisabled(p, f, Ceil) && |Plan(p, f, Ceil)| == 2
            && ApplyPlan(p.collateral, p.positionPrice, Plan(p, f, Ceil)[..1]) == (333333333333333334, 2)
            && !Covered(333333333333333334, p.debt, 2)
            && Covered(333333333333333334, p.debt, NewPrice(p, f))
  {
    var p := Props(2, 0, SCALE, 1, false);
    var f := Form(true, 1, Some(RemoveCollateral));
    assert RequiredCollateral(p, f) == 333333333333333334;
    AfterWithdrawal(p, f);
  }

  /** The source's plan can strand the debt: collateral 1, debt 1, price
      10^18 (covered) raised by 1. Line 73 rounds the requirement down to 0,
      so the source asks for the strategy and then withdraws all the
      collateral, leaving debt 1 on none. The corrected plan frees nothing
      and only adjusts the price. */
  lemma PlanAsWrittenStrandsDebt()
    ensures var p := Props(SCALE, 0, 1, 1, false);
            var f := Form(true, 1, Some(RemoveCollateral));
            && Covered(p.collateral, p.debt, p.positionPrice)
            && f.delta <= MaxDelta(p)
            && NeedsStrategy(p, f, Floor) && !IsDisabled(p, f, Floor)
            && HandleExecute(p, f, true, Floor) == Some([WithdrawCollateral(1), AdjustPrice(SCALE + 1)])
            && ApplyPlan(p.collateral, p.positionPrice, Plan(p, f, Floor)) == (0, SCALE + 1)
            && !Covered(0, p.debt, SCALE + 1)
            && !NeedsStrategy(p, f, Ceil) && !IsDisabled(p, f, Ceil)
            && Plan(p, f, Ceil) == [AdjustPrice(SCALE + 1)]
  {
    var p := Props(SCALE, 0, 1, 1, false);
    var f := Form(true, 1, Some(RemoveCollateral));
    assert NewPrice(p, f) == SCALE + 1;
    assert MinCollateralNeededAsWritten(p, f) == 0;
    var req := RequiredCollateral(p, f);
    assert req == 1 by {
      assert req != 0;
    }
    ApplyTwoSteps(1, SCALE, 1, SCALE + 1);
  }

  lemma ApplyOneStep(c: int, price: int, q: int)
    ensures ApplyPlan(c, price, [AdjustPrice(q)]) == (c, q)
  {
  }

  lemma ApplyTwoSteps(c: int, price: int, w: nat, q: int)
    ensures ApplyPlan(c, price, [WithdrawCollateral(w), AdjustPrice(q)]) == (c - w, q)
  {
    assert [WithdrawCollateral(w), AdjustPrice(q)][1..] == [AdjustPrice(q)];
    ApplyOneStep(c - w, price, q);
  }

  /** The removal rounding shows on whole price units too (18 price
      decimals, so one unit is 10^18): collateral 10^18, debt 10^18, price
      2 * 10^18 raised by one unit with removal. The source withdraws
      666666666666666667 and leaves a position its debt exceeds at the new
      price; the corrected plan withdraws one less and stays covered. */
  lemma WholeUnitRemovalUndercollateralizes()
    ensures var p := Props(2 * SCALE, 0, SCALE, SCALE, false);
            var f := Form(true, SCALE, Some(RemoveCollateral));
            && f.delta % SCALE == 0
            && Covered(p.collateral, p.debt, p.positionPrice)
            && f.delta <= MaxDelta(p)
            && !IsDisabled(p, f, Floor)
            && Plan(p, f, Floor) == [WithdrawCollateral(666666666666666667), AdjustPrice(3 * SCALE)]
            && !Covered(p.collateral - 666666666666666667, p.debt, NewPrice(p, f))
            && !IsDisabled(p, f, Ceil)
            && Plan(p, f, Ceil) == [WithdrawCollateral(666666666666666666), AdjustPrice(3 * SCALE)]
            && Covered(p.collateral - 666666666666666666, p.debt, NewPrice(p, f))
  {
    var p := Props(2 * SCALE, 0, SCALE, SCALE, false);
    var f := Form(true, SCALE, Some(RemoveCollateral));
    assert NewPrice(p, f) == 3 * SCALE;
    assert MinCollateralNeededAsWritten(p, f) == 333333333333333333;
    assert RequiredCollateral(p, f) == 333333333333333334;
  }

  /** The decrease rounding shows on whole price units too: collateral
      3 * 10^18, debt 10^18, price 10^18 + 333333333333333333 lowered by one
      unit to 333333333333333333. The source's gate lets it through, the
      debt is no longer covered there, and the corrected gate refuses it. */
  lemma WholeUnitDecreaseUndercollateralizes()
    ensures var p := Props(SCALE + 333333333333333333, 0, 3 * SCALE, SCALE, false);
            var f := Form(false, SCALE, None);
            && f.delta % SCALE == 0
            && Covered(p.collateral, p.debt, p.positionPrice)
            && !IsDisabled(p, f, Floor)
            && HandleExecute(p, f, true, Floor) == Some([AdjustPrice(333333333333333333)])
            && !Covered(p.collateral, p.debt, NewPrice(p, f))
            && IsDisabled(p, f, Ceil)
  {
    var p := Props(SCALE + 333333333333333333, 0, 3 * SCALE, SCALE, false);
    var f := Form(false, SCALE, None);
    assert NewPrice(p, f) == 333333333333333333;
    assert MinPriceForDecreaseAsWritten(p) == 333333333333333333;
    assert MinPriceForDecrease(p) == 333333333333333334;
  }

  /** A decrease within the corrected bound keeps a covered position
      covered. */
  lemma DecreaseStaysCovered(p: Props, f: Form)
    requires Covered(p.collateral, p.debt, p.positionPrice)
    requires !f.isIncrease && !IsDecreaseInvalid(p, f, Ceil)
    ensures NewPrice(p, f) >= 0
    ensures Covered(p.collateral, p.debt, NewPrice(p, f))
  {
    var q := NewPrice(p, f);
    if f.delta > 0 && p.debt > 0 {
      CoveredNeedsCollateral(p.collateral, p.debt, p.positionPrice);
      var low := MinPriceForDecrease(p);
      assert q >= low;
      CoveredMonotone(p.collateral, p.collateral, p.debt, low, q);
    }
  }

  // ---------------------------------------------------------------------
  // Form transitions (the effects on lines 94-101)

  /** Switching direction clears the amount and the strategy; choosing the
      current direction again changes nothing. */
  function SetDirection(f: Form, isIncrease: bool): Form {
    if isIncrease == f.isIncrease then f else Form(isIncrease, 0, None)
  }

  /** A new amount clears the chosen strategy. */
  function SetDelta(f: Form, delta: nat): Form {
    if delta == f.delta then f else Form(f.isIncrease, delta, None)
  }

  function ChooseRemoveCollateral(f: Form): Form {
    f.(strategy := Some(RemoveCollateral))
  }

  /** After a direction switch the form is empty and cannot execute; after
      an amount change that frees collateral the strategy must be chosen
      again before the button enables, and choosing it is all that is
      missing when nothing else blocks. */
  lemma TransitionsResetChoice(p: Props, f: Form, delta: nat, rd: Rounding)
    ensures SetDirection(f, !f.isIncrease) == Form(!f.isIncrease, 0, None)
    ensures IsDisabled(p, SetDirection(f, !f.isIncrease), rd)
    ensures delta != f.delta && NeedsStrategy(p, SetDelta(f, delta), rd) ==> IsDisabled(p, SetDelta(f, delta), rd)
    ensures NeedsStrategy(p, f, rd) && !IsBlockedByCooldown(p, f) ==> !IsDisabled(p, ChooseRemoveCollateral(f), rd)
  {
  }

  /** The form starts as an empty increase, which cannot execute. */
  lemma InitialFormDisabled(p: Props, rd: Rounding)
    ensures InitialForm.isIncrease && InitialForm.delta == 0 && InitialForm.strategy.None?
    ensures IsDisabled(p, InitialForm, rd)
    ensures HandleExecute(p, InitialForm, true, rd).None?
  {
  }
}

=== FILE: adjust_loan.dfy ===
/** The loan adjustment form of the mint page
    (components/PageMint/AdjustLoan.tsx): the borrow/repay bound, full
    repayment with its dust threshold, the outcome the form shows (built
    locally for a full repayment, otherwise asked of the solver), the merge
    of two solver outcomes, the amount error, and the repay/approval
    amounts. `solveManage` is an uninterpreted parameter. */
module AdjustLoan {
  import opened Common
  import opened SolverTypes

  /** The two ways a borrow may be financed: more collateral (the solver's
      KEEP_LIQ_PRICE) and a higher liquidation price (KEEP_COLLATERAL). */
  datatype Strategies = Strategies(addCollateral: bool, higherPrice: bool)

  /** The props the form reads: balances, the current debt and liquidation
      price, the position's reference price (`position.price`), the
      stablecoin allowance and the solver snapshot. */
  datatype Props = Props(
    collateralBalance: nat,
    currentDebt: nat,
    liqPrice: nat,
    walletBalance: nat,
    positionPrice: nat,
    allowance: nat,
    current: SolverPosition)

  /** The form's state. `input` is the amount field (`None` when empty). */
  datatype Form = Form(isIncrease: bool, input: Option<nat>, strategies: Strategies, withdrawAll: bool)

  /** The error shown under the amount field; it suggests adding collateral
      when that strategy is off. */
  datatype AmountError = ExceedsMax(suggestMoreCollateral: bool)

  /** What the confirm button does. */
  datatype Button = Disabled | Approve(amount: nat) | Execute(outcome: SolverOutcome)

  const NoStrategies: Strategies := Strategies(false, false)

  const InitialForm: Form := Form(true, None, NoStrategies, false)

  /** `BigInt(deltaAmount || 0)`. */
  function Delta(f: Form): nat {
    f.input.GetOr(0)
  }

  predicate HasAnyStrategy(s: Strategies) {
    s.addCollateral || s.higherPrice
  }

  // ---------------------------------------------------------------------
  // The amount bound

  function MaxCollateral(p: Props, s: Strategies): nat {
    if s.addCollateral then p.collateralBalance + p.walletBalance else p.collateralBalance
  }

  function MaxPrice(p: Props, s: Strategies): nat {
    if s.higherPrice then 2 * p.liqPrice else p.liqPrice
  }

  /** `positionLimit`: the debt the reference price allows on the
      collateral the strategies can reach. */
  function PositionLimit(p: Props, s: Strategies): nat {
    p.positionPrice * MaxCollateral(p, s) / SCALE
  }

  /** `maxDebt` before the position limit, exactly as line 76 computes it:
      the price/collateral growth ratio, truncated, divided again by the
      current debt. */
  function RawMaxDebt(p: Props, s: Strategies): nat
    requires p.liqPrice * p.collateralBalance > 0 && p.currentDebt > 0
  {
    MaxPrice(p, s) * MaxCollateral(p, s) / (p.liqPrice * p.collateralBalance) / p.currentDebt
  }

  /** `maxDelta`: the whole debt when repaying; nothing when borrowing without
      a strategy or without debt; otherwise the room below the bound, capped
      by the position limit when the price may rise. A zero divisor on line
      76 throws, which is `DivisionByZero` here. */
  function MaxDelta(p: Props, f: Form): (r: Result<nat>)
    ensures !f.isIncrease ==> r == Ok(p.currentDebt)
    ensures f.isIncrease && (!HasAnyStrategy(f.strategies) || p.currentDebt == 0) ==> r == Ok(0)
    ensures r.DivisionByZero? <==>
              f.isIncrease && HasAnyStrategy(f.strategies) && p.currentDebt > 0
              && (p.liqPrice == 0 || p.collateralBalance == 0)
    ensures f.isIncrease && f.strategies.higherPrice && r.Ok? && r.value > 0 ==>
              p.currentDebt + r.value <= PositionLimit(p, f.strategies)
  {
    if !f.isIncrease then Ok(p.currentDebt)
    else if !HasAnyStrategy(f.strategies) || p.currentDebt == 0 then Ok(0)
    else if p.liqPrice * p.collateralBalance == 0 then DivisionByZero
    else
      var maxDebt := RawMaxDebt(p, f.strategies);
      var capped := if f.strategies.higherPrice then Min(maxDebt, PositionLimit(p, f.strategies)) else maxDebt;
      Ok(if capped > p.currentDebt then capped - p.currentDebt else 0)
  }

  /** Because line 76 divides the growth ratio by the debt itself, a borrow
      bound is nonzero only when `debt * (debt + 1) * collateral` is at most
      twice the collateral the strategies can reach: with a debt of 2 or
      more and a wallet no larger than the position's collateral, the bound
      is always 0. */
  lemma {:induction false} BorrowBoundCollapses(p: Props, f: Form)
    requires f.isIncrease && MaxDelta(p, f).Ok? && MaxDelta(p, f).value > 0
    ensures p.currentDebt * (p.currentDebt + 1) * p.collateralBalance
              <= 2 * (p.collateralBalance + p.walletBalance)
  {
    var s := f.strategies;
    assert RawMaxDebt(p, s) >= p.currentDebt + 1;
    GrowthBound(p.currentDebt, p.liqPrice, p.collateralBalance, p.walletBalance,
                MaxCollateral(p, s), MaxPrice(p, s));
  }

  /** The arithmetic behind `BorrowBoundCollapses`: a twice-truncated ratio
      `mp * mc / (liq * cb) / d` of at least `d + 1`, with `mp <= 2 * liq`
      and `mc <= cb + w`. */
  lemma GrowthBound(d: nat, liq: nat, cb: nat, w: nat, mc: nat, mp: nat)
    requires d > 0 && liq * cb > 0
    requires mc <= cb + w && mp <= 2 * liq
    requires mp * mc / (liq * cb) / d >= d + 1
    ensures d * (d + 1) * cb <= 2 * (cb + w)
  {
    var divisor := liq * cb;
    var num := mp * mc;
    var ratio := num / divisor;
    var maxDebt := ratio / d;
    assert (d + 1) * d <= ratio by {
      FloorDivBounds(ratio, d);
      MulMonotone(d, d + 1, maxDebt);
    }
    assert (d + 1) * d * divisor <= num by {
      FloorDivBounds(num, divisor);
      MulMonotone(divisor, (d + 1) * d, ratio);
    }
    assert num <= liq * (2 * (cb + w)) by {
      MulMonotone(mc, mp, 2 * liq);
      MulMonotone(2 * liq, mc, cb + w);
    }
    assert (d + 1) * d * divisor == liq * ((d + 1) * d * cb);
    LessEqFromProducts((d + 1) * d * cb, 2 * (cb + w), liq);
  }

  lemma LessEqFromProducts(a: int, b: int, q: nat)
    requires q > 0 && q * a <= q * b
    ensures a <= b
  {
    if a > b {
      assert q * a - q * b == q * (a - b);
      MulMonotone(q, 1, a - b);
    }
  }

  // ---------------------------------------------------------------------
  // Full repayment

  /** `isFullRepay`: a repayment that leaves at most 0.1% of the debt
      (`currentDebt / 1000n`, truncated) closes the loan. */
  predicate IsFullRepay(f: Form, currentDebt: nat) {
    !f.isIncrease && Delta(f) > 0
    && (Delta(f) >= currentDebt || currentDebt - Delta(f) <= currentDebt / 1000)
  }

  /** The dust threshold needs no truncation to state: a repayment is full
      exactly when the residual debt times 1000 does not exceed the debt. */
  lemma FullRepayIff(f: Form, currentDebt: nat)
    ensures IsFullRepay(f, currentDebt) <==>
              !f.isIncrease && Delta(f) > 0
              && (Delta(f) >= currentDebt || 1000 * (currentDebt - Delta(f)) <= currentDebt)
  {
  }

  /** On a debt of 100000, repaying 99999 leaves 1, within the threshold of
      100; repaying 99899 leaves 101, which is not. */
  lemma FullRepayBoundary(s: Strategies, withdrawAll: bool)
    ensures IsFullRepay(Form(false, Some(99999), s, withdrawAll), 100000)
    ensures IsFullRepay(Form(false, Some(99900), s, withdrawAll), 100000)
    ensures !IsFullRepay(Form(false, Some(99899), s, withdrawAll), 100000)
    ensures !IsFullRepay(Form(true, Some(100000), s, withdrawAll), 100000)
  {
  }

  /** The outcome the form builds itself for a full repayment: the debt goes
      to zero, the price and expiration stay, and the collateral is either
      withdrawn with it or left in place. The deltas agree with the next
      state, and the repayment always comes first. */
  function FullRepayOutcome(p: Props, withdrawAll: bool): (r: SolverOutcome)
    ensures r.isValid
    ensures r.next.debt == 0 && r.deltaDebt == -(p.currentDebt as int)
    ensures r.next.liqPrice == p.liqPrice && r.deltaLiqPrice == 0
    ensures r.next.expiration == p.current.expiration
    ensures r.next.collateral == p.collateralBalance + r.deltaCollateral
    ensures |r.txPlan| > 0 && r.txPlan[0] == Repay
    ensures withdrawAll ==> r.next.collateral == 0 && r.txPlan == [Repay, Withdraw]
    ensures !withdrawAll ==> r.deltaCollateral == 0 && r.txPlan == [Repay]
  {
    SolverOutcome(
      SolverPosition(if withdrawAll then 0 else p.collateralBalance, 0, p.liqPrice, p.current.expiration),
      if withdrawAll then -(p.collateralBalance as int) else 0,
      -(p.currentDebt as int),
      0,
      if withdrawAll then [Repay, Withdraw] else [Repay],
      true)
  }

  // ---------------------------------------------------------------------
  // The outcome

  /** Both strategies on: the KEEP_LIQ_PRICE outcome, with its next price and
      price delta replaced by those of the KEEP_COLLATERAL outcome. */
  function Merge(collat: SolverOutcome, price: SolverOutcome): (r: SolverOutcome)
    ensures r.next.liqPrice == price.next.liqPrice && r.deltaLiqPrice == price.deltaLiqPrice
    ensures r.next.collateral == collat.next.collateral && r.next.debt == collat.next.debt
    ensures r.next.expiration == collat.next.expiration
    ensures r.deltaCollateral == collat.deltaCollateral && r.deltaDebt == collat.deltaDebt
    ensures r.txPlan == collat.txPlan && r.isValid == collat.isValid
  {
    collat.(deltaLiqPrice := price.deltaLiqPrice, next := collat.next.(liqPrice := price.next.liqPrice))
  }

  /** The merge takes its price from the keep-collateral outcome alone:
      merging with an outcome changes nothing when it is that outcome, a
      later merge overrides an earlier one, and the price before the change
      (`next.liqPrice - deltaLiqPrice`) is the keep-collateral outcome's. */
  lemma MergeLaws(a: SolverOutcome, b: SolverOutcome, c: SolverOutcome)
    ensures Merge(a, a) == a
    ensures Merge(Merge(a, b), c) == Merge(a, c)
    ensures Merge(a, b).next.liqPrice - Merge(a, b).deltaLiqPrice == b.next.liqPrice - b.deltaLiqPrice
    ensures Merge(a, b) == a <==> a.next.liqPrice == b.next.liqPrice && a.deltaLiqPrice == b.deltaLiqPrice
  {
  }

  /** The solver strategy used when only one of the two is on. */
  function SingleStrategy(s: Strategies): Strategy {
    if s.addCollateral then KeepLiqPrice else KeepCollateral
  }

  /** The outcome effect (lines 94-138): nothing for an empty or zero
      amount; a locally built outcome for a full repayment; otherwise the
      solver, asked for the loan target at the debt the amount leads to.
      The effect catches a throwing solver and keeps no outcome, also when
      only one of the two calls for both strategies throws. */
  function LoanOutcome(p: Props, f: Form, solve: Solve): (r: Option<SolverOutcome>)
    ensures f.input.None? || Delta(f) == 0 ==> r.None?
    ensures IsFullRepay(f, p.currentDebt) ==> r == Some(FullRepayOutcome(p, f.withdrawAll))
    ensures !f.isIncrease && Delta(f) > 0 && !IsFullRepay(f, p.currentDebt) ==>
              Delta(f) < p.currentDebt
              && r == Caught(solve(p.current, Loan, KeepCollateral, p.currentDebt - Delta(f)))
    ensures f.isIncrease && !HasAnyStrategy(f.strategies) ==> r.None?
    ensures f.isIncrease && Delta(f) > 0 && f.strategies.addCollateral != f.strategies.higherPrice ==>
              r == Caught(solve(p.current, Loan, SingleStrategy(f.strategies), p.currentDebt + Delta(f)))
    ensures f.isIncrease && Delta(f) > 0 && f.strategies.addCollateral && f.strategies.higherPrice ==>
              var collat := solve(p.current, Loan, KeepLiqPrice, p.currentDebt + Delta(f));
              var price := solve(p.current, Loan, KeepCollateral, p.currentDebt + Delta(f));
              && (collat.Threw? || price.Threw? ==> r.None?)
              && (collat.Solved? && price.Solved? ==> r == Some(Merge(collat.outcome, price.outcome)))
              && (!collat.Threw? && !price.Threw? && !(collat.Solved? && price.Solved?) ==> r == Caught(collat))
  {
    match f.input
    case None => None
    case Some(delta) =>
      if delta == 0 then None
      else if !f.isIncrease then
        if delta >= p.currentDebt || p.currentDebt - delta <= p.currentDebt / 1000 then
          Some(FullRepayOutcome(p, f.withdrawAll))
        else Caught(solve(p.current, Loan, KeepCollateral, p.currentDebt - delta))
      else if !f.strategies.addCollateral && !f.strategies.higherPrice then None
      else
        var newDebt := p.currentDebt + delta;
        if f.strategies.addCollateral && f.strategies.higherPrice then
          var collat := solve(p.current, Loan, KeepLiqPrice, newDebt);
          var price := solve(p.current, Loan, KeepCollateral, newDebt);
          if collat.Threw? || price.Threw? then None
          else if collat.Solved? && price.Solved? then Some(Merge(collat.outcome, price.outcome))
          else Caught(solve(p.current, Loan, SingleStrategy(f.strategies), newDebt))
        else Caught(solve(p.current, Loan, SingleStrategy(f.strategies), newDebt))
  }

  /** The calls on lines 87-88 run while the form renders, outside any
      `try`: for a positive borrow amount, with or without a strategy, a
      throwing solver crashes the form instead of leaving no outcome. */
  predicate RenderThrows(p: Props, f: Form, solve: Solve) {
    f.isIncrease && Delta(f) > 0
    && (solve(p.current, Loan, KeepLiqPrice, p.currentDebt + Delta(f)).Threw?
        || solve(p.current, Loan, KeepCollateral, p.currentDebt + Delta(f)).Threw?)
  }

  /** On a form that renders, the effect's catch never fires for a borrow:
      a borrow with a strategy has an outcome exactly when the solver returns
      one for the single strategy (KEEP_LIQ_PRICE when both are on). A
      keep-collateral call that throws with both strategies on leaves no
      outcome in the effect, but the form has then already crashed. */
  lemma RenderedBorrowOutcome(p: Props, f: Form, solve: Solve)
    requires f.isIncrease && Delta(f) > 0 && HasAnyStrategy(f.strategies)
    ensures !RenderThrows(p, f, solve) ==>
              (LoanOutcome(p, f, solve).Some? <==>
                 solve(p.current, Loan, SingleStrategy(f.strategies), p.currentDebt + Delta(f)).Solved?)
    ensures f.strategies.addCollateral && f.strategies.higherPrice
            && solve(p.current, Loan, KeepCollateral, p.currentDebt + Delta(f)).Threw? ==>
              LoanOutcome(p, f, solve).None? && RenderThrows(p, f, solve)
  {
  }

  /** A partial repayment asks the solver for a debt above the dust
      threshold, so never for zero. */
  lemma PartialRepayTargetAboveDust(p: Props, f: Form)
    requires !f.isIncrease && Delta(f) > 0 && !IsFullRepay(f, p.currentDebt)
    ensures p.currentDebt - Delta(f) > p.currentDebt / 1000 >= 0
    ensures p.currentDebt - Delta(f) > 0
  {
  }

  // ---------------------------------------------------------------------
  // The amount error

  /** The amount-error effect (lines 140-150). */
  function AmountErrorOf(f: Form, maxDelta: nat): Option<AmountError> {
    if f.input.None? || (f.isIncrease && !HasAnyStrategy(f.strategies)) then None
    else if Delta(f) > maxDelta && maxDelta > 0 then Some(ExceedsMax(!f.strategies.addCollateral))
    else None
  }

  /** The error appears exactly when a non-empty amount exceeds a positive
      bound (and, when borrowing, a strategy is on); a zero bound never
      raises it, so a collapsed borrow bound lets any amount through. */
  lemma AmountErrorIff(f: Form, maxDelta: nat)
    ensures AmountErrorOf(f, maxDelta).Some? <==>
              f.input.Some? && (!f.isIncrease || HasAnyStrategy(f.strategies))
              && Delta(f) > maxDelta && maxDelta > 0
    ensures AmountErrorOf(f, maxDelta).Some? ==>
              AmountErrorOf(f, maxDelta).value.suggestMoreCollateral == !f.strategies.addCollateral
    ensures maxDelta == 0 || Delta(f) <= maxDelta ==> AmountErrorOf(f, maxDelta).None?
  {
  }

  /** The Max button (line 154) fills in the bound; it is disabled while the
      bound is 0. */
  function MaxClick(f: Form, maxDelta: nat): Form {
    f.(input := Some(maxDelta))
  }

  predicate MaxButtonEnabled(maxDelta: nat) {
    maxDelta > 0
  }

  /** Filling in the bound never raises the amount error, and the amount it
      fills in is exactly the bound. */
  lemma MaxClickAccepted(f: Form, maxDelta: nat)
    ensures Delta(MaxClick(f, maxDelta)) == maxDelta
    ensures AmountErrorOf(MaxClick(f, maxDelta), maxDelta).None?
    ensures MaxClick(f, maxDelta).isIncrease == f.isIncrease
    ensures MaxClick(f, maxDelta).strategies == f.strategies
  {
  }

  // ---------------------------------------------------------------------
  // Repayment, approval and the confirm button

  /** The stablecoin a plan pays back: the debt decrease, 0 otherwise. */
  function RepayAmount(o: Option<SolverOutcome>): (r: nat)
    ensures r > 0 <==> o.Some? && o.value.deltaDebt < 0
    ensures r > 0 ==> r == -o.value.deltaDebt
  {
    if o.None? || o.value.deltaDebt >= 0 then 0 else -o.value.deltaDebt
  }

  predicate NeedsApproval(repay: nat, allowance: nat) {
    repay > 0 && allowance < repay
  }

  /** The confirm button: disabled without a valid outcome, during a
      transaction or with an amount error; otherwise it first approves twice
      the repayment when the allowance is short, and executes when not. */
  function ConfirmButton(p: Props, o: Option<SolverOutcome>, err: Option<AmountError>, txOnGoing: bool): Button {
    if o.None? || !o.value.isValid || txOnGoing || err.Some? then Disabled
    else if NeedsApproval(RepayAmount(o), p.allowance) then Approve(2 * RepayAmount(o))
    else Execute(o.value)
  }

  /** An approval always grants more than the repayment needs, and once it
      is granted the same outcome executes. A full repayment of a positive
      debt is approved for twice the debt whenever the allowance is short. */
  lemma ApprovalCoversRepayment(p: Props, o: Option<SolverOutcome>, err: Option<AmountError>, txOnGoing: bool)
    ensures ConfirmButton(p, o, err, txOnGoing).Approve? ==>
              var a := ConfirmButton(p, o, err, txOnGoing).amount;
              && a > RepayAmount(o) > p.allowance
              && ConfirmButton(p.(allowance := a), o, err, txOnGoing) == Execute(o.value)
    ensures ConfirmButton(p, o, err, txOnGoing).Execute? ==>
              o.Some? && o.value.isValid && err.None? && p.allowance >= RepayAmount(o)
  {
  }

  // ---------------------------------------------------------------------
  // Form transitions

  /** Switching direction clears the amount and the strategies (the effect
      on lines 62-67); it keeps the withdraw-all choice. Choosing the
      current direction again changes nothing. */
  function SetDirection(f: Form, isIncrease: bool): Form {
    if isIncrease == f.isIncrease then f
    else Form(isIncrease, None, NoStrategies, f.withdrawAll)
  }

  function ToggleAddCollateral(f: Form): Form {
    f.(strategies := f.strategies.(addCollateral := !f.strategies.addCollateral))
  }

  function ToggleHigherPrice(f: Form): Form {
    f.(strategies := f.strategies.(higherPrice := !f.strategies.higherPrice))
  }

  /** After a direction switch there is no outcome, no error and no
      strategy, but a withdraw-all choice survives; toggling a strategy
      twice restores the form. */
  lemma TransitionsReset(p: Props, f: Form, solve: Solve, maxDelta: nat)
    ensures var g := SetDirection(f, !f.isIncrease);
            && LoanOutcome(p, g, solve).None?
            && AmountErrorOf(g, maxDelta).None?
            && !HasAnyStrategy(g.strategies)
            && g.withdrawAll == f.withdrawAll
    ensures ToggleAddCollateral(ToggleAddCollateral(f)) == f
    ensures ToggleHigherPrice(ToggleHigherPrice(f)) == f
  {
  }
}

=== FILE: app_config.dfy ===
/** The decision logic of the client configuration (app.config.ts): chain
    and RPC selection, the time-windowed switch of the indexer to its
    fallback URL, and the mint-position blacklist. The clock is the
    parameter `now` (milliseconds); the module-level `fallbackUntil`
    variable is the state record `Fallback`. */
module AppConfig {
  import opened Common
  import opened Text
  import Sorting

  datatype Chain = Testnet | Mainnet

  /** The configured network endpoints. */
  datatype Network = Network(testnet: string, mainnet: string)

  /** The indexer endpoints: the primary and its fallback. */
  datatype Ponder = Ponder(primary: string, fallback: string)

  /** `fallbackUntil`: `None` for `null`. */
  type Fallback = Option<nat>

  /** The fallback window: ten minutes. */
  const FallbackWindow: nat := 600_000

  const MintPositionBlacklist: seq<string> := []

  /** `CONFIG_CHAIN`. */
  function ConfigChain(chain: string): (r: Chain)
    ensures r == Testnet <==> chain == "testnet"
  {
    if chain == "testnet" then Testnet else Mainnet
  }

  /** `CONFIG_RPC`: the endpoint of the chain `CONFIG_CHAIN` selects. */
  function ConfigRpc(chain: string, network: Network): (r: string)
    ensures ConfigChain(chain) == Testnet ==> r == network.testnet
    ensures ConfigChain(chain) == Mainnet ==> r == network.mainnet
  {
    if chain == "testnet" then network.testnet else network.mainnet
  }

  /** A set, non-zero `fallbackUntil` (JavaScript truthiness). */
  predicate Armed(f: Fallback) {
    f.Some? && f.value != 0
  }

  /** `getPonderUrl`: the fallback while the window is open. */
  function PonderUrl(ponder: Ponder, f: Fallback, now: nat): (r: string)
    ensures Armed(f) && now < f.value ==> r == ponder.fallback
    ensures !(Armed(f) && now < f.value) ==> r == ponder.primary
  {
    if Armed(f) && now < f.value then ponder.fallback else ponder.primary
  }

  /** `activateFallback`: opens the window once; a window already set is
      kept as it is, even after it has closed. */
  function ActivateFallback(f: Fallback, now: nat): (r: Fallback)
    ensures !Armed(f) ==> r == Some(now + FallbackWindow)
    ensures Armed(f) ==> r == f
    ensures Armed(r)
  {
    if !Armed(f) then Some(now + FallbackWindow) else f
  }

  /** What the error link does with a failed operation: the new fallback
      state and whether the operation is forwarded again. A 503 status is
      handled exactly like any other network error. */
  function OnError(ponder: Ponder, f: Fallback, now: nat, networkError: bool, is503: bool): (r: (Fallback, bool))
    ensures !networkError || PonderUrl(ponder, f, now) != ponder.primary ==> r == (f, false)
    ensures networkError && PonderUrl(ponder, f, now) == ponder.primary ==> r == (ActivateFallback(f, now), true)
  {
    if !networkError || PonderUrl(ponder, f, now) != ponder.primary then (f, false)
    else if is503 then (ActivateFallback(f, now), true)
    else (ActivateFallback(f, now), true)
  }

  /** The first network error switches the indexer to the fallback for the
      next ten minutes. */
  lemma FirstErrorOpensWindow(ponder: Ponder, now: nat, later: nat, is503: bool)
    requires ponder.primary != ponder.fallback
    requires now <= later < now + FallbackWindow
    ensures var (f, retried) := OnError(ponder, None, now, true, is503);
            retried && PonderUrl(ponder, f, later) == ponder.fallback
  {
  }

  /** The window is one-shot: once it has closed, further network errors
      neither re-open nor extend it, so the primary stays selected. */
  lemma WindowNeverReopens(ponder: Ponder, f: Fallback, now: nat, is503: bool)
    requires Armed(f) && f.value <= now
    ensures OnError(ponder, f, now, true, is503).0 == f
    ensures PonderUrl(ponder, OnError(ponder, f, now, true, is503).0, now) == ponder.primary
  {
  }

  /** Whether the 503 branch is taken never changes the outcome. */
  lemma StatusIrrelevant(ponder: Ponder, f: Fallback, now: nat, networkError: bool)
    ensures OnError(ponder, f, now, networkError, true) == OnError(ponder, f, now, networkError, false)
  {
  }

  /** `POSITION_NOT_BLACKLISTED` against a blacklist. */
  function NotBlacklisted(blacklist: seq<string>, addr: string): (r: bool)
    ensures r <==> forall i :: 0 <= i < |blacklist| ==> !EqualsIgnoreCase(blacklist[i], addr)
  {
    var matches := Sorting.Filter(blacklist, (p: string) => EqualsIgnoreCase(p, addr));
    assert |matches| == 0 <==> forall i :: 0 <= i < |blacklist| ==> !EqualsIgnoreCase(blacklist[i], addr) by {
      if |matches| != 0 {
        assert matches[0] in multiset(matches);
        assert matches[0] in multiset(blacklist);
        var j :| 0 <= j < |blacklist| && blacklist[j] == matches[0];
        assert EqualsIgnoreCase(blacklist[j], addr);
      }
    }
    |matches| == 0
  }

  /** The shipped blacklist is empty, so no position is blacklisted. */
  lemma NothingBlacklisted(addr: string)
    ensures NotBlacklisted(MintPositionBlacklist, addr)
  {
  }
}

=== FILE: bonus_history_table.dfy ===
/** The referral bonus history table
    (components/PageReferrals/BonusHistoryTable.tsx): the column-header
    state (which column sorts, and whether the order is reversed) and the
    sort itself. `Number(payout)` and `localeCompare` are abstracted as
    integer ranks. */
module BonusHistoryTable {
  import opened Sorting

  /** The four columns, in header order. */
  datatype Tab = Payout | Source | Date | TxId

  datatype TableState = TableState(tab: Tab, reverse: bool)

  /** One row as the table holds it. */
  datatype BonusRow = BonusRow(payout: string, source: string, date: string, txId: string)

  /** The orders the client delegates: the numeric value of a payout and
      the collation rank of a text. */
  datatype Keys = Keys(payout: string -> int, text: string -> int)

  /** The table opens on the payout column, not reversed. */
  const Initial: TableState := TableState(Payout, false)

  /** `handleTabOnChange`: the current column flips the order; another
      column is selected, reversed only when it is the source column. */
  function OnTabClick(s: TableState, e: Tab): (r: TableState)
    ensures r.tab == e
    ensures e == s.tab ==> r.reverse != s.reverse
    ensures e != s.tab ==> (r.reverse <==> e == Source)
  {
    if s.tab == e then s.(reverse := !s.reverse)
    else TableState(e, e == Source)
  }

  /** Clicking the same column twice restores the state. */
  lemma ClickTwiceRestores(s: TableState)
    ensures OnTabClick(OnTabClick(s, s.tab), s.tab) == s
  {
  }

  /** The sort key of a column. */
  function Key(tab: Tab, keys: Keys): BonusRow -> int {
    match tab
    case Payout => (row: BonusRow) => keys.payout(row.payout)
    case Source => (row: BonusRow) => keys.text(row.source)
    case Date => (row: BonusRow) => keys.text(row.date)
    case TxId => (row: BonusRow) => keys.text(row.txId)
  }

  /** The column's own order: payouts largest first, the text columns in
      collation order. */
  ghost predicate InColumnOrder(rows: seq<BonusRow>, tab: Tab, keys: Keys) {
    if tab == Payout then Descending(rows, Key(tab, keys)) else Ascending(rows, Key(tab, keys))
  }

  /** The opposite of the column's own order. */
  ghost predicate AgainstColumnOrder(rows: seq<BonusRow>, tab: Tab, keys: Keys) {
    if tab == Payout then Ascending(rows, Key(tab, keys)) else Descending(rows, Key(tab, keys))
  }

  /** `sortBonusHistory` on a copy of the rows: a permutation of them, in
      the column's order, or against it when reversed. */
  function SortBonusHistory(rows: seq<BonusRow>, s: TableState, keys: Keys): (r: seq<BonusRow>)
    ensures multiset(r) == multiset(rows) && |r| == |rows|
    ensures !s.reverse ==> InColumnOrder(r, s.tab, keys)
    ensures s.reverse ==> AgainstColumnOrder(r, s.tab, keys)
  {
    var key := Key(s.tab, keys);
    var sorted := if s.tab == Payout then SortByDescending(rows, key) else SortBy(rows, key);
    if s.reverse then
      ReversePermutes(sorted);
      ReverseFlipsOrder(sorted, key);
      Reverse(sorted)
    else sorted
  }

  /** Choosing a new column shows largest payouts first, sources in reverse
      collation order, and dates and transaction ids in collation order. */
  lemma FreshColumnOrder(rows: seq<BonusRow>, s: TableState, e: Tab, keys: Keys)
    requires e != s.tab
    ensures var r := SortBonusHistory(rows, OnTabClick(s, e), keys);
            && (e == Payout ==> Descending(r, Key(Payout, keys)))
            && (e == Source ==> Descending(r, Key(Source, keys)))
            && (e == Date || e == TxId ==> Ascending(r, Key(e, keys)))
  {
  }
}

=== FILE: common.dfy ===
/** Shared vocabulary of the model: optional values, the division error of
    JavaScript's BigInt, and exact integer helpers over the 18-decimal
    fixed-point scale the position arithmetic uses. */
module Common {

  /** A value that may be absent: `null`/`undefined` in the client or an
      empty input field. */
  datatype Option<+T> = None | Some(value: T) {
    function GetOr(default: T): T {
      match this
      case Some(v) => v
      case None => default
    }
  }

  /** The outcome of a BigInt computation that may throw `RangeError` on a
      zero divisor. */
  datatype Result<+T> = Ok(value: T) | DivisionByZero

  /** `BigInt(1e18)`: the fixed-point scale of debt and of liquidation prices. */
  const SCALE: nat := 1_000_000_000_000_000_000

  function Max(a: int, b: int): (r: int)
    ensures r >= a && r >= b
    ensures r == a || r == b
  {
    if a > b then a else b
  }

  function Min(a: int, b: int): (r: int)
    ensures r <= a && r <= b
    ensures r == a || r == b
  {
    if a < b then a else b
  }

  /** Quotient rounded up: the least `r` with `r * b >= a`. */
  function CeilDiv(a: nat, b: nat): (r: nat)
    requires b > 0
    ensures r * b >= a
    ensures r == 0 || (r - 1) * b < a
  {
    if a % b == 0 then a / b else a / b + 1
  }

  /** Truncating quotient of non-negative operands (what BigInt `/` does
      there): the greatest `r` with `r * b <= a`. */
  lemma FloorDivBounds(a: nat, b: nat)
    requires b > 0
    ensures (a / b) * b <= a < (a / b + 1) * b
  {
  }

  /** Rounding down never exceeds rounding up, and they differ by at most one. */
  lemma FloorBelowCeil(a: nat, b: nat)
    requires b > 0
    ensures a / b <= CeilDiv(a, b) <= a / b + 1
    ensures CeilDiv(a, b) == a / b <==> a % b == 0
  {
  }

  /** The collateralization invariant `debt <= collateral * price / SCALE`,
      stated without the truncating division; the two forms agree for
      non-negative values (see `CoveredIffFloor`). */
  predicate Covered(collateral: int, debt: int, price: int) {
    debt * SCALE <= collateral * price
  }

  lemma CoveredIffFloor(collateral: nat, debt: nat, price: nat)
    ensures Covered(collateral, debt, price) <==> debt <= collateral * price / SCALE
  {
    FloorDivBounds(collateral * price, SCALE);
    var q := collateral * price / SCALE;
    if debt <= q {
      assert debt * SCALE <= q * SCALE;
    } else {
      assert debt >= q + 1;
      assert debt * SCALE >= (q + 1) * SCALE;
    }
  }

  /** Multiplying a non-negative amount by a larger price never lowers it. */
  lemma MulMonotone(c: nat, p: int, q: int)
    requires p <= q
    ensures c * p <= c * q
  {
  }

  /** Dividing both sides of a strict product inequality by a positive factor. */
  lemma LessFromProducts(b: int, a: int, q: nat)
    requires q > 0 && b * q < a * q
    ensures b < a
  {
  }

  /** A positive debt is covered only by positive collateral. */
  lemma CoveredNeedsCollateral(c: nat, debt: nat, price: nat)
    requires debt > 0 && Covered(c, debt, price)
    ensures c > 0
  {
    assert debt * SCALE >= SCALE;
  }

  /** More collateral, or a higher price, keeps a covered debt covered. */
  lemma CoveredMonotone(c1: nat, c2: nat, debt: int, p1: nat, p2: nat)
    requires c1 <= c2 && p1 <= p2
    requires Covered(c1, debt, p1)
    ensures Covered(c2, debt, p2)
  {
    MulMonotone(p1, c1, c2);
    MulMonotone(c2, p1, p2);
  }

  /** The least collateral covering `debt` at `price`: `debt * SCALE / price`
      rounded up. */
  function CollateralFor(debt: nat, price: nat): (r: nat)
    requires price > 0
    ensures Covered(r, debt, price)
    ensures r == 0 || !Covered(r - 1, debt, price)
  {
    var a := debt * SCALE;
    var c := CeilDiv(a, price);
    assert c * price == price * c;
    assert c == 0 || (c - 1) * price == price * (c - 1);
    c
  }

  /** The least price at which `collateral` covers `debt`: `debt * SCALE /
      collateral` rounded up. */
  function PriceFor(debt: nat, collateral: nat): (r: nat)
    requires collateral > 0
    ensures Covered(collateral, debt, r)
    ensures r == 0 || !Covered(collateral, debt, r - 1)
  {
    var a := debt * SCALE;
    var c := CeilDiv(a, collateral);
    assert c * collateral == collateral * c;
    assert c == 0 || (c - 1) * collateral == collateral * (c - 1);
    c
  }

  /** `debt * SCALE / d` truncated, as the client's BigInt code computes it. */
  function ScaledQuotient(debt: nat, d: nat): (r: nat)
    requires d > 0
    ensures r * d <= debt * SCALE < (r + 1) * d
  {
    var a := debt * SCALE;
    FloorDivBounds(a, d);
    a / d
  }

  /** The truncated quotient is the rounded-up one, or one below it. */
  lemma ScaledQuotientBelowCeil(debt: nat, d: nat)
    requires d > 0
    ensures ScaledQuotient(debt, d) <= CollateralFor(debt, d) <= ScaledQuotient(debt, d) + 1
    ensures ScaledQuotient(debt, d) <= PriceFor(debt, d) <= ScaledQuotient(debt, d) + 1
  {
    FloorBelowCeil(debt * SCALE, d);
  }
}

=== FILE: expandable_table.dfy ===
/** The collapse/expand state shared by the tables
    (hooks/useExpandableTable.ts): a collapsed table shows its first rows, an
    expanded one all of them. */
module ExpandableTable {
  import opened Common

  /** `DEFAULT_VISIBLE_ROWS`. */
  const DefaultVisibleRows: nat := 3

  /** The hook starts collapsed. */
  const InitiallyExpanded: bool := false

  /** What the hook returns besides the toggle. */
  datatype View<T> = View(visibleData: seq<T>, isExpanded: bool, showExpandButton: bool, totalCount: nat)

  /** `visibleData`: all rows when expanded, the first `rows` otherwise. */
  function VisibleData<T>(data: seq<T>, isExpanded: bool, rows: nat): (r: seq<T>)
    ensures r <= data
    ensures isExpanded ==> r == data
    ensures !isExpanded ==> |r| == Min(|data|, rows)
  {
    if isExpanded then data else data[..Min(|data|, rows)]
  }

  /** The hook's result for a table and an expansion state. */
  function Hook<T>(data: seq<T>, isExpanded: bool, rows: nat): (r: View<T>)
    ensures r.visibleData == VisibleData(data, isExpanded, rows)
    ensures r.isExpanded == isExpanded
    ensures r.showExpandButton <==> |data| > rows
    ensures r.totalCount == |data|
  {
    View(VisibleData(data, isExpanded, rows), isExpanded, |data| > rows, |data|)
  }

  /** `toggleExpanded`. */
  function Toggle(isExpanded: bool): (r: bool)
    ensures r != isExpanded
  {
    !isExpanded
  }

  /** The expand button is shown exactly when expanding changes what is
      visible; when it is hidden, both views show the whole table. */
  lemma ExpandButtonIffViewsDiffer<T>(data: seq<T>, rows: nat)
    ensures Hook(data, false, rows).showExpandButton <==>
              |VisibleData(data, false, rows)| < |VisibleData(data, true, rows)|
    ensures !Hook(data, false, rows).showExpandButton ==>
              VisibleData(data, false, rows) == VisibleData(data, true, rows) == data
  {
  }

  /** Toggling twice returns to the starting view; the initial view shows at
      most the default number of rows. */
  lemma ToggleTwiceRestores<T>(data: seq<T>, isExpanded: bool, rows: nat)
    ensures Hook(data, Toggle(Toggle(isExpanded)), rows) == Hook(data, isExpanded, rows)
    ensures |Hook(data, InitiallyExpanded, DefaultVisibleRows).visibleData| <= 3
  {
  }
}

=== FILE: footer.dfy ===
/** The footer (components/Footer.tsx): the documentation link that follows
    the current page, and the referral code it shows. The docs base URL,
    the two reserved frontend codes and `shortenHash` are parameters. */
module Footer {
  import opened Common
  import opened Text

  /** Every suffix the docs link can receive. */
  const Suffixes: set<string> := {
    "", "/positions/clone", "/positions/open", "/positions/adjust", "/positions/auctions",
    "/reserve/pool-shares", "/savings-todo", "/governance", "/swap"
  }

  /** The page rules after the two mint rules, in the order they are tried:
      a path containing the first part gets the second as suffix. */
  const LaterRules: seq<(string, string)> := [
    ("/mypositions", "/positions/adjust"),
    ("/monitoring", "/positions/auctions"),
    ("/challenges", "/positions/auctions"),
    ("/equity", "/reserve/pool-shares"),
    ("/savings", "/savings-todo"),
    ("/governance", "/governance"),
    ("/swap", "/swap")
  ]

  /** The suffix the if-chain of `DynamicDocs` appends for a path. */
  function DocsSuffix(p: string): (r: string)
    ensures r in Suffixes
    ensures p == "/mint/create" ==> r == "/positions/open"
    ensures p != "/mint/create" && Contains(p, "/mint") ==> r == "/positions/clone"
  {
    if p != "/mint/create" && Contains(p, "/mint") then "/positions/clone"
    else if p == "/mint/create" then "/positions/open"
    else if Contains(p, "/mypositions") then "/positions/adjust"
    else if Contains(p, "/monitoring") then "/positions/auctions"
    else if Contains(p, "/challenges") then "/positions/auctions"
    else if Contains(p, "/equity") then "/reserve/pool-shares"
    else if Contains(p, "/savings") then "/savings-todo"
    else if Contains(p, "/governance") then "/governance"
    else if Contains(p, "/swap") then "/swap"
    else ""
  }

  /** The suffix of the first rule whose part the path contains. */
  function FirstRule(p: string, rules: seq<(string, string)>): string {
    if rules == [] then ""
    else if Contains(p, rules[0].0) then rules[0].1
    else FirstRule(p, rules[1..])
  }

  /** `DynamicDocs`: the docs link, bare for an unknown path, otherwise with
      the suffix of the page. */
  function DynamicDocs(docs: string, path: Option<string>): (r: string)
    ensures path.None? ==> r == docs
    ensures StartsWith(r, docs) && r[|docs|..] in Suffixes
    ensures path.Some? ==> r == docs + DocsSuffix(path.value)
  {
    var link := if path.None? then docs else docs + DocsSuffix(path.value);
    assert link[..|docs|] == docs;
    assert link[|docs|..] == if path.None? then "" else DocsSuffix(path.value);
    link
  }

  /** Outside the mint pages, the first matching rule of the ordered table
      decides the link. The table is the same rules written as data, so
      this is a cross-check of the if-chain's order against a first-match
      reading, not an independent statement of intent. */
  lemma DocsFollowRuleTable(p: string)
    requires p != "/mint/create" && !Contains(p, "/mint")
    ensures DocsSuffix(p) == FirstRule(p, LaterRules)
  {
    var r0 := LaterRules;
    var r1 := [("/monitoring", "/positions/auctions"), ("/challenges", "/positions/auctions"),
               ("/equity", "/reserve/pool-shares"), ("/savings", "/savings-todo"),
               ("/governance", "/governance"), ("/swap", "/swap")];
    var r2 := r1[1..];
    var r3 := r2[1..];
    var r4 := r3[1..];
    var r5 := r4[1..];
    var r6 := r5[1..];
    assert r0[1..] == r1;
    assert r6 == [("/swap", "/swap")] && r6[1..] == [];
    assert FirstRule(p, r6) == if Contains(p, "/swap") then "/swap" else "";
    assert FirstRule(p, r5) == if Contains(p, "/governance") then "/governance" else FirstRule(p, r6);
    assert FirstRule(p, r4) == if Contains(p, "/savings") then "/savings-todo" else FirstRule(p, r5);
    assert FirstRule(p, r3) == if Contains(p, "/equity") then "/reserve/pool-shares" else FirstRule(p, r4);
    assert FirstRule(p, r2) == if Contains(p, "/challenges") then "/positions/auctions" else FirstRule(p, r3);
    assert FirstRule(p, r1) == if Contains(p, "/monitoring") then "/positions/auctions" else FirstRule(p, r2);
    assert FirstRule(p, r0) == if Contains(p, "/mypositions") then "/positions/adjust" else FirstRule(p, r1);
  }

  /** Exactly "/mint/create" links to opening a position, any other mint
      path to cloning one, and an unknown path to the bare docs. */
  lemma DocsExamples(docs: string)
    ensures DynamicDocs(docs, Some("/mint/create")) == docs + "/positions/open"
    ensures DynamicDocs(docs, Some("/mint/0x12")) == docs + "/positions/clone"
    ensures DynamicDocs(docs, None) == docs
  {
    assert StartsWith("/mint/0x12", "/mint");
    assert Contains("/mint/0x12", "/mint");
    assert StartsWith("/mint/create", "/mint");
  }

  /** The referral code shown (lines 31-33): the marketing code when set;
      otherwise the shortened frontend code, unless it is unset or one of
      the two reserved codes; `None` when nothing is shown. */
  function DisplayedCode(marketingCode: string, frontendCode: string, zeroCode: string, defaultCode: string,
                         shortenHash: string -> string): (r: Option<string>)
    ensures r.Some? ==> r.value != ""
    ensures marketingCode != "" ==> r == Some(marketingCode)
    ensures marketingCode == "" && r.Some? ==>
              r.value == shortenHash(frontendCode)
              && frontendCode != "" && frontendCode != zeroCode && frontendCode != defaultCode
    ensures (marketingCode == "" && frontendCode != "" && frontendCode != zeroCode && frontendCode != defaultCode
             && shortenHash(frontendCode) != "") ==> r == Some(shortenHash(frontendCode))
  {
    if marketingCode != "" then Some(marketingCode)
    else if frontendCode == "" || frontendCode == zeroCode || frontendCode == defaultCode then None
    else if shortenHash(frontendCode) == "" then None
    else Some(shortenHash(frontendCode))
  }
}

=== FILE: governance_voters_table.dfy ===
/** The governance voters table
    (components/PageGovernance/GovernanceVotersTable.tsx): the column-header
    state, the removal of the connected account from the list, and the
    sort. `localeCompare`, `parseInt` and the floating-point voting-power
    ratio are abstracted as integer keys. */
module GovernanceVotersTable {
  import opened Text
  import opened Common
  import opened Sorting

  /** The three columns, in header order. */
  datatype Tab = Address | Balance | VotingPower

  datatype TableState = TableState(tab: Tab, reverse: bool)

  /** One voter: holder address, pool shares and voting power. */
  datatype VoteRow = VoteRow(holder: string, nativePS: int, votingPower: int)

  /** The orders the client delegates: the collation rank of a holder, the
      parsed pool-share balance and the voting-power ratio. */
  datatype Keys = Keys(address: VoteRow -> int, balance: VoteRow -> int, power: VoteRow -> int)

  /** The table opens on the voting-power column, not reversed. */
  const Initial: TableState := TableState(VotingPower, false)

  /** `handleTabOnChange`: the current column flips the order; another column
      is selected in its own order. */
  function OnTabClick(s: TableState, e: Tab): (r: TableState)
    ensures r.tab == e
    ensures e == s.tab ==> r.reverse != s.reverse
    ensures e != s.tab ==> !r.reverse
  {
    if s.tab == e then s.(reverse := !s.reverse)
    else TableState(e, false)
  }

  /** `matchingVotes`: the voters other than the connected account, compared
      ignoring letter case; everyone when no account is connected. */
  function MatchingVotes(votes: seq<VoteRow>, account: Option<string>): (r: seq<VoteRow>)
    ensures forall i :: 0 <= i < |r| ==> account.None? || !EqualsIgnoreCase(r[i].holder, account.value)
    ensures forall i :: 0 <= i < |votes| && (account.None? || !EqualsIgnoreCase(votes[i].holder, account.value)) ==>
              multiset(r)[votes[i]] == multiset(votes)[votes[i]]
    ensures multiset(r) <= multiset(votes)
    ensures account.None? ==> r == votes
  {
    var keep := (v: VoteRow) => account.None? || !EqualsIgnoreCase(v.holder, account.value);
    if account.None? then FilterKeepsAll(votes, keep); Filter(votes, keep)
    else Filter(votes, keep)
  }

  /** Removing the account keeps the other voters in their order: filtering
      a concatenation is the concatenation of the filtered parts. */
  lemma MatchingKeepsOrder(xs: seq<VoteRow>, ys: seq<VoteRow>, account: Option<string>)
    ensures MatchingVotes(xs + ys, account) == MatchingVotes(xs, account) + MatchingVotes(ys, account)
  {
    var keep := (v: VoteRow) => account.None? || !EqualsIgnoreCase(v.holder, account.value);
    FilterAppend(xs, ys, keep);
  }

  /** The sort key of a column. */
  function Key(tab: Tab, keys: Keys): VoteRow -> int {
    match tab
    case Address => keys.address
    case Balance => keys.balance
    case VotingPower => keys.power
  }

  /** The column's own order: addresses in collation order, balances and
      voting power largest first. */
  ghost predicate InColumnOrder(rows: seq<VoteRow>, tab: Tab, keys: Keys) {
    if tab == Address then Ascending(rows, Key(tab, keys)) else Descending(rows, Key(tab, keys))
  }

  ghost predicate AgainstColumnOrder(rows: seq<VoteRow>, tab: Tab, keys: Keys) {
    if tab == Address then Descending(rows, Key(tab, keys)) else Ascending(rows, Key(tab, keys))
  }

  /** `sortVotes` without its account-pinning pass: a permutation of the
      voters, in the column's order, or against it when reversed. */
  function SortVotes(votes: seq<VoteRow>, s: TableState, keys: Keys): (r: seq<VoteRow>)
    ensures multiset(r) == multiset(votes) && |r| == |votes|
    ensures !s.reverse ==> InColumnOrder(r, s.tab, keys)
    ensures s.reverse ==> AgainstColumnOrder(r, s.tab, keys)
  {
    var key := Key(s.tab, keys);
    var sorted := if s.tab == Address then SortBy(votes, key) else SortByDescending(votes, key);
    if s.reverse then
      ReversePermutes(sorted);
      ReverseFlipsOrder(sorted, key);
      Reverse(sorted)
    else sorted
  }

  /** The listed voters never include the connected account, and every other
      voter is listed as often as the data holds it. */
  lemma ListedVotersExcludeAccount(votes: seq<VoteRow>, account: string, s: TableState, keys: Keys)
    ensures var listed := SortVotes(MatchingVotes(votes, Some(account)), s, keys);
            && (forall i :: 0 <= i < |listed| ==> !EqualsIgnoreCase(listed[i].holder, account))
            && (forall i :: 0 <= i < |votes| && !EqualsIgnoreCase(votes[i].holder, account) ==>
                  multiset(listed)[votes[i]] == multiset(votes)[votes[i]])
  {
    var m := MatchingVotes(votes, Some(account));
    var listed := SortVotes(m, s, keys);
    forall i | 0 <= i < |listed| ensures !EqualsIgnoreCase(listed[i].holder, account) {
      assert listed[i] in multiset(m);
      var j :| 0 <= j < |m| && m[j] == listed[i];
    }
  }
}

=== FILE: manage_solver.dfy ===
/** The four-step adjustment wizard of the manage page
    (components/PageMint/ManageSolver.tsx): pick a target, enter its new
    value, choose what stays constant, preview the solver's outcome. The
    wizard is a state record; every button is an event that only acts on
    the screen that shows it. `solveManage` and `getStrategiesForTarget` are
    uninterpreted parameters. */
module ManageSolver {
  import opened Common
  import opened SolverTypes

  datatype Step = SelectTarget | EnterValue | ChooseStrategy | Preview

  /** The wizard's state. `value` is the text field (`None` when empty). */
  datatype Wizard = Wizard(step: Step, target: Option<Target>, value: Option<nat>, strategy: Option<Strategy>)

  /** What the page renders. */
  datatype Screen = Loading | TargetMenu | ExpirationSection | ValueEntry | StrategyMenu | PreviewOutcome | Blank

  /** The buttons of the wizard. */
  datatype Event =
    | PickTarget(target: Target)
    | TypeValue(input: Option<nat>)
    | Next
    | PickStrategy(strategy: Strategy)
    | Back
    | StartOver

  /** The listed position: its collateral decimals (0 when unset) and its
      expiration. */
  datatype PositionInfo = PositionInfo(collateralDecimals: nat, expiration: int)

  /** The contract reads `price`, collateral `balanceOf` and `getDebt`
      (`None` while unread). */
  datatype Reads = Reads(price: Option<nat>, collateralBalance: Option<nat>, debt: Option<nat>)

  /** Everything the wizard consults besides its own state. */
  datatype Env = Env(
    position: Option<PositionInfo>,
    onChain: Reads,
    solve: Solve,
    strategiesFor: (Target, bool) -> seq<Strategy>)

  /** A target's current value and the decimals its input uses. */
  datatype ValueInfo = ValueInfo(value: int, decimals: int)

  const Initial: Wizard := Wizard(SelectTarget, None, None, None)

  // ---------------------------------------------------------------------
  // Derived values

  /** `data?.[1]?.result || 1n`: an unread or zero price reads as 1. */
  function ReadLiqPrice(r: Reads): (p: nat)
    ensures p >= 1
    ensures r.price.Some? && r.price.value > 0 ==> p == r.price.value
  {
    if r.price.Some? && r.price.value > 0 then r.price.value else 1
  }

  /** `position?.collateralDecimals || 18`. */
  function CollateralDecimals(pos: Option<PositionInfo>): (d: nat)
    ensures d > 0
    ensures pos.Some? && pos.value.collateralDecimals > 0 ==> d == pos.value.collateralDecimals
  {
    if pos.Some? && pos.value.collateralDecimals > 0 then pos.value.collateralDecimals else 18
  }

  /** The solver snapshot: none until the position is listed. */
  function CurrentPosition(env: Env): (r: Option<SolverPosition>)
    ensures r.Some? <==> env.position.Some?
    ensures r.Some? ==>
              && r.value.collateral == env.onChain.collateralBalance.GetOr(0)
              && r.value.debt == env.onChain.debt.GetOr(0)
              && r.value.liqPrice == ReadLiqPrice(env.onChain)
              && r.value.expiration == env.position.value.expiration
  {
    match env.position
    case None => None
    case Some(p) => Some(SolverPosition(env.onChain.collateralBalance.GetOr(0), env.onChain.debt.GetOr(0), ReadLiqPrice(env.onChain), p.expiration))
  }

  /** `getValueInfo`: prices carry `36 - collateralDecimals` decimals, the
      loan 18, and the expiration has neither a value nor decimals here. */
  function GetValueInfo(t: Target, env: Env): (r: ValueInfo)
    ensures t == Collateral ==> r == ValueInfo(env.onChain.collateralBalance.GetOr(0), CollateralDecimals(env.position))
    ensures t == LiqPrice ==> r.value == ReadLiqPrice(env.onChain)
                               && r.decimals + CollateralDecimals(env.position) == 36
    ensures t == Loan ==> r == ValueInfo(env.onChain.debt.GetOr(0), 18)
    ensures t == Expiration ==> r == ValueInfo(0, 0)
  {
    match t
    case Collateral => ValueInfo(env.onChain.collateralBalance.GetOr(0), CollateralDecimals(env.position))
    case LiqPrice => ValueInfo(ReadLiqPrice(env.onChain), 36 - CollateralDecimals(env.position))
    case Loan => ValueInfo(env.onChain.debt.GetOr(0), 18)
    case Expiration => ValueInfo(0, 0)
  }

  /** The price slider's range. */
  function SliderBounds(env: Env): (int, int) {
    (ReadLiqPrice(env.onChain) / 2, ReadLiqPrice(env.onChain) * 2)
  }

  /** The slider's range is never empty and always holds the current price. */
  lemma SliderHoldsCurrentPrice(env: Env)
    ensures SliderBounds(env).0 <= ReadLiqPrice(env.onChain) <= SliderBounds(env).1
    ensures SliderBounds(env).0 < SliderBounds(env).1
  {
  }

  // ---------------------------------------------------------------------
  // The outcome and the screen

  /** The outcome effect: nothing unless the position, a target, a value and
      a strategy are all present; otherwise the solver's outcome, where a
      `null` answer and a caught exception alike leave none. */
  function Outcome(w: Wizard, env: Env): (r: Option<SolverOutcome>)
    ensures CurrentPosition(env).None? || w.target.None? || w.value.None? || w.strategy.None? ==> r.None?
    ensures CurrentPosition(env).Some? && w.target.Some? && w.value.Some? && w.strategy.Some? ==>
              var a := env.solve(CurrentPosition(env).value, w.target.value, w.strategy.value, w.value.value);
              && (r.Some? <==> a.Solved?)
              && (r.Some? ==> r.value == a.outcome)
  {
    var cur := CurrentPosition(env);
    if cur.None? || w.target.None? || w.value.None? || w.strategy.None? then None
    else Caught(env.solve(cur.value, w.target.value, w.strategy.value, w.value.value))
  }

  /** Which screen the component renders, in its order of checks. */
  function ScreenOf(w: Wizard, env: Env): Screen {
    if env.position.None? then Loading
    else if w.step == SelectTarget then TargetMenu
    else if w.target == Some(Expiration) && w.step == Preview then ExpirationSection
    else if w.step == EnterValue then ValueEntry
    else if w.step == ChooseStrategy then StrategyMenu
    else if Outcome(w, env).Some? then PreviewOutcome
    else Blank
  }

  /** The target's current value, against which the new one is compared. */
  function CurrentValue(w: Wizard, env: Env): int {
    if w.target.Some? then GetValueInfo(w.target.value, env).value else 0
  }

  /** The Next button is enabled for a non-empty value that differs from the
      current one. */
  predicate NextEnabled(w: Wizard, env: Env) {
    w.target.Some? && w.value.Some? && w.value.value != CurrentValue(w, env)
  }

  /** `isIncrease` as the strategy request derives it. */
  predicate IsIncrease(w: Wizard, env: Env) {
    w.value.Some? && w.value.value > CurrentValue(w, env)
  }

  /** The strategies offered on the strategy screen. */
  function Offered(w: Wizard, env: Env): seq<Strategy> {
    if w.target.Some? then env.strategiesFor(w.target.value, IsIncrease(w, env)) else []
  }

  // ---------------------------------------------------------------------
  // Transitions

  /** The reset effect on a target change: value, strategy (and outcome) are
      cleared whenever the target actually changes. */
  function ChangeTarget(w: Wizard, t: Option<Target>): (r: Wizard)
    ensures r.target == t && r.step == w.step
    ensures t != w.target ==> r.value.None? && r.strategy.None?
    ensures t == w.target ==> r == w
  {
    if t == w.target then w else Wizard(w.step, t, None, None)
  }

  /** `handleReset`. */
  function Reset(w: Wizard): (r: Wizard)
    ensures r.step == SelectTarget && r.target.None? && r.value.None? && r.strategy.None?
  {
    ChangeTarget(w, None).(step := SelectTarget, value := None, strategy := None)
  }

  /** One button press; a button the current screen does not show changes
      nothing. */
  function Apply(w: Wizard, e: Event, env: Env): Wizard {
    var screen := ScreenOf(w, env);
    match e
    case PickTarget(t) =>
      if screen == TargetMenu then
        ChangeTarget(w, Some(t)).(step := if t == Expiration then Preview else EnterValue)
      else w
    case TypeValue(v) =>
      if screen == ValueEntry then w.(value := v) else w
    case Next =>
      if screen == ValueEntry && NextEnabled(w, env) then w.(step := ChooseStrategy) else w
    case PickStrategy(s) =>
      if screen == StrategyMenu && s in Offered(w, env) then w.(strategy := Some(s), step := Preview) else w
    case Back =>
      if screen == ValueEntry || screen == ExpirationSection then Reset(w)
      else if screen == StrategyMenu then w.(step := EnterValue)
      else if screen == PreviewOutcome then w.(step := ChooseStrategy)
      else w
    case StartOver =>
      if screen == PreviewOutcome then Reset(w) else w
  }

  /** A sequence of button presses from a given state. */
  function Run(w: Wizard, events: seq<Event>, env: Env): Wizard
    decreases |events|
  {
    if events == [] then w else Run(Apply(w, events[0], env), events[1..], env)
  }

  /** What holds in every state the wizard can reach: a target exactly off
      the first step, nothing else chosen there, the expiration target only
      on its own preview, a value from the strategy step on, and a strategy
      on the preview of any other target. */
  predicate Consistent(w: Wizard) {
    && (w.step == SelectTarget <==> w.target.None?)
    && (w.step == SelectTarget ==> w.value.None? && w.strategy.None?)
    && (w.target == Some(Expiration) ==> w.step == Preview && w.value.None? && w.strategy.None?)
    && (w.step == ChooseStrategy ==> w.value.Some?)
    && (w.step == Preview && w.target != Some(Expiration) ==> w.value.Some? && w.strategy.Some?)
  }

  /** Every button press keeps the wizard consistent. */
  lemma ApplyKeepsConsistent(w: Wizard, e: Event, env: Env)
    requires Consistent(w)
    ensures Consistent(Apply(w, e, env))
  {
  }

  /** Every state reachable from the initial one is consistent. */
  lemma {:induction false} RunKeepsConsistent(w: Wizard, events: seq<Event>, env: Env)
    requires Consistent(w)
    ensures Consistent(Run(w, events, env))
    decreases |events|
  {
    if events != [] {
      ApplyKeepsConsistent(w, events[0], env);
      RunKeepsConsistent(Apply(w, events[0], env), events[1..], env);
    }
  }

  lemma ReachableConsistent(events: seq<Event>, env: Env)
    ensures Consistent(Run(Initial, events, env))
  {
    RunKeepsConsistent(Initial, events, env);
  }

  /** The first step leads to the expiration section for the expiration
      target and to value entry for any other, with nothing else chosen. */
  lemma PickTargetRoutes(w: Wizard, t: Target, env: Env)
    requires env.position.Some? && Consistent(w) && w.step == SelectTarget
    ensures var r := Apply(w, PickTarget(t), env);
            && r.target == Some(t) && r.value.None? && r.strategy.None?
            && (t == Expiration ==> r.step == Preview && ScreenOf(r, env) == ExpirationSection)
            && (t != Expiration ==> r.step == EnterValue && ScreenOf(r, env) == ValueEntry)
  {
  }

  /** Next moves on exactly when the value is non-empty and differs from the
      target's current value. */
  lemma NextIff(w: Wizard, env: Env)
    requires Consistent(w) && env.position.Some? && w.step == EnterValue
    ensures Apply(w, Next, env).step == ChooseStrategy <==>
              w.value.Some? && w.value.value != GetValueInfo(w.target.value, env).value
    ensures Apply(w, Next, env).step != ChooseStrategy ==> Apply(w, Next, env) == w
  {
  }

  /** Picking an offered strategy records it and moves to the preview,
      whose outcome is then the solver's answer for exactly the chosen
      target, value and strategy; an unoffered one changes nothing. */
  lemma PickStrategyPreviews(w: Wizard, s: Strategy, env: Env)
    requires Consistent(w) && env.position.Some? && w.step == ChooseStrategy
    ensures var r := Apply(w, PickStrategy(s), env);
            && (s in Offered(w, env) ==>
                  && r.step == Preview && r.strategy == Some(s)
                  && r.target == w.target && r.value == w.value
                  && Outcome(r, env) == Caught(env.solve(CurrentPosition(env).value, w.target.value, s, w.value.value)))
            && (s !in Offered(w, env) ==> r == w)
  {
  }

  /** Back steps one screen back from the strategy menu and the preview, and
      resets from value entry and the expiration section; start over resets
      from the preview. */
  lemma BackAndStartOver(w: Wizard, env: Env)
    requires Consistent(w) && env.position.Some?
    ensures ScreenOf(w, env) == StrategyMenu ==> Apply(w, Back, env) == w.(step := EnterValue)
    ensures ScreenOf(w, env) == PreviewOutcome ==>
              Apply(w, Back, env) == w.(step := ChooseStrategy) && Apply(w, StartOver, env) == Initial
    ensures ScreenOf(w, env) in {ValueEntry, ExpirationSection} ==> Apply(w, Back, env) == Initial
  {
  }

  /** A preview without an outcome (the solver returned `null` or threw)
      renders nothing and offers no button, so the wizard stays there. */
  lemma BlankPreviewIsStuck(w: Wizard, e: Event, env: Env)
    requires ScreenOf(w, env) == Blank
    ensures w.step == Preview && w.target != Some(Expiration)
    ensures Apply(w, e, env) == w
  {
  }
}

=== FILE: position_formatting.dfy ===
/** Decimal tables and delta rendering of the position views
    (utils/positionFormatting.ts). Number rendering (`formatCurrency` over
    `formatUnits`) is an uninterpreted parameter. */
module PositionFormatting {
  import opened Text

  /** `formatCurrency(formatUnits(value, decimals), minDigits, maxDigits)`,
      folded into one uninterpreted renderer of a value with its decimals
      and the display digits. */
  type Render = (int, int, nat) -> string

  /** Stablecoin units recognised for inputs. */
  const InputStablecoins: seq<string> := ["JUSD", "DEURO"]

  /** Stablecoin units recognised for display. */
  const DisplayStablecoins: seq<string> := ["JUSD", "DEURO", "USD"]

  /** Input decimals: 2 for a stablecoin unit in any letter case, else 8. */
  function GetDisplayDecimals(unit: string): (r: nat)
    ensures r == 2 <==> Upper(unit) in InputStablecoins
    ensures r == 2 || r == 8
  {
    if Upper(unit) in InputStablecoins then 2 else 8
  }

  /** Display decimals: 2 for a stablecoin or USD in any letter case, else 3. */
  function GetDisplayDecimalsForDisplay(unit: string): (r: nat)
    ensures r == 2 <==> Upper(unit) in DisplayStablecoins
    ensures r == 2 || r == 3
  {
    if Upper(unit) in DisplayStablecoins then 2 else 3
  }

  /** A unit is never displayed with more decimals than it is entered with,
      and the two tables differ only on USD and on non-stablecoin units. */
  lemma DisplayNeverFinerThanInput(unit: string)
    ensures GetDisplayDecimalsForDisplay(unit) <= GetDisplayDecimals(unit)
    ensures GetDisplayDecimals(unit) == 2 ==> GetDisplayDecimalsForDisplay(unit) == 2
    ensures Upper(unit) == "USD" ==> GetDisplayDecimals(unit) == 8 && GetDisplayDecimalsForDisplay(unit) == 2
  {
  }

  /** Letter case never matters: two spellings of a unit that differ only
      in case get the same input and display decimals. */
  lemma CaseNeverMatters(a: string, b: string)
    requires EqualsIgnoreCase(a, b)
    ensures GetDisplayDecimals(a) == GetDisplayDecimals(b)
    ensures GetDisplayDecimalsForDisplay(a) == GetDisplayDecimalsForDisplay(b)
    ensures GetDisplayDecimals(a) == GetDisplayDecimals(Lower(a))
    ensures GetDisplayDecimalsForDisplay(a) == GetDisplayDecimalsForDisplay(Lower(a))
  {
    SameUpperIgnoringCase(a, b);
    UpperOfLower(a);
  }

  /** Letter case never matters: "jusd" and "Deuro" are stablecoins. */
  lemma CaseInsensitiveExamples()
    ensures GetDisplayDecimals("jusd") == 2 && GetDisplayDecimals("Deuro") == 2
    ensures GetDisplayDecimalsForDisplay("usd") == 2 && GetDisplayDecimalsForDisplay("wcbtc") == 3
  {
    assert Upper("jusd") == "JUSD";
    assert Upper("Deuro") == "DEURO";
    assert Upper("usd") == "USD";
    assert Upper("wcbtc") == "WCBTC";
  }

  /** `formatPositionValue`: the rendered value followed by a space and the
      unit. */
  function FormatPositionValue(value: int, decimals: int, unit: string, render: Render): string {
    render(value, decimals, GetDisplayDecimalsForDisplay(unit)) + " " + unit
  }

  /** `formatPositionDelta`: "No change" for zero, otherwise the magnitude,
      with a "+" in front of an increase. */
  function FormatPositionDelta(delta: int, decimals: int, unit: string, render: Render): (r: string)
    ensures delta == 0 ==> r == "No change"
    ensures delta > 0 ==> r == "+" + FormatPositionValue(delta, decimals, unit, render)
    ensures delta < 0 ==> r == FormatPositionValue(-delta, decimals, unit, render)
  {
    if delta == 0 then "No change"
    else
      var prefix := if delta > 0 then "+" else "";
      var magnitude := if delta >= 0 then delta else -delta;
      prefix + FormatPositionValue(magnitude, decimals, unit, render)
  }

  /** An increase renders as "+" followed by exactly what the decrease of
      the same size renders. */
  lemma DeltaSignSymmetry(delta: int, decimals: int, unit: string, render: Render)
    requires delta > 0
    ensures FormatPositionDelta(delta, decimals, unit, render)
            == "+" + FormatPositionDelta(-delta, decimals, unit, render)
  {
  }
}

=== FILE: reference_position.dfy ===
/** The reference position the clone flow offers
    (hooks/useReferencePosition.ts, lines 33-64): a hardcoded default
    position is offered when it is on the same collateral, priced above the
    current price and backed by a loan. The default position the store
    fetches is read but never consulted; it is a parameter here so that this
    can be stated. */
module ReferencePosition {
  import opened Common
  import opened Text
  import VRP = ValidReferencePosition

  /** The fields of a default position the choice reads. */
  datatype DefaultPosition = DefaultPosition(position: string, collateral: string, price: nat, principal: nat)

  /** The hardcoded default: a WCBTC position priced at 50000 (18 decimals)
      with a principal of 500 (18 decimals). */
  const Hardcoded: DefaultPosition := DefaultPosition(
    "0xE2D4Ca089457ECfabF89F472568eac4e94b21d8C",
    "0x8d0c9d1c17aE5e40ffF9bE350f57840E9E66Cd93",
    50_000 * SCALE,
    500 * SCALE)

  /** The memoised selection; `storeDefault` is the store's default
      position, which it ignores. */
  function Select(current: Option<VRP.Current>, currentPrice: int, storeDefault: Option<DefaultPosition>): (r: VRP.Reference)
    ensures current.None? ==> r == VRP.NoReference
    ensures r.address.Some? <==>
              current.Some? && EqualsIgnoreCase(Hardcoded.collateral, current.value.collateral)
              && currentPrice < 50_000 * SCALE && Hardcoded.principal != 0
    ensures r.address.Some? ==> r == VRP.Reference(Some(Hardcoded.position), 50_000 * SCALE)
    ensures r.address.Some? ==> r.price > currentPrice
    ensures r.address.None? ==> r == VRP.NoReference
  {
    if current.None? then VRP.NoReference
    else if EqualsIgnoreCase(Hardcoded.collateral, current.value.collateral)
            && Hardcoded.price > currentPrice && Hardcoded.principal != 0 then
      VRP.Reference(Some(Hardcoded.position), Hardcoded.price)
    else VRP.NoReference
  }

  /** The store's default position never changes the result. */
  lemma IgnoresStoreDefault(current: Option<VRP.Current>, currentPrice: int, d1: Option<DefaultPosition>, d2: Option<DefaultPosition>)
    ensures Select(current, currentPrice, d1) == Select(current, currentPrice, d2)
  {
  }

  /** The collateral match ignores letter case: a lower-case spelling of the
      hardcoded collateral selects it, below the hardcoded price. */
  lemma MatchesLowerCaseCollateral(currentPrice: int, d: Option<DefaultPosition>)
    requires currentPrice < 50_000 * SCALE
    ensures Select(Some(VRP.Current("", Lower(Hardcoded.collateral))), currentPrice, d).address == Some(Hardcoded.position)
  {
    LowerIdempotent(Hardcoded.collateral);
  }
}

=== FILE: select_asset_modal.dfy ===
/** The asset picker of the equity page
    (components/PageEquity/SelectAssetModal.tsx): display precision per
    symbol, the balance lookup by exact symbol, and the fixed list of three
    options. Number rendering is an uninterpreted parameter. */
module SelectAssetModal {
  import opened Common
  import opened Text

  /** A wallet balance entry: symbol, balance (`None` when missing) and
      decimals. */
  datatype TokenBalance = TokenBalance(symbol: string, balanceOf: Option<int>, decimals: nat)

  /** One row of the picker. */
  datatype AssetOption = AssetOption(symbol: string, name: string, balanceOf: int)

  /** The symbols the picker lists. */
  datatype Symbols = Symbols(token: string, poolShare: string, savingsVault: string)

  /** `formatCurrency(formatUnits(value, decimals), minDigits, maxDigits)`. */
  type Render = (int, nat, nat, nat) -> string

  const Stablecoins: seq<string> := ["JUSD", "DEURO", "USD", "SJUSD"]

  /** `getDisplayPrecision`: two digits for a stablecoin symbol in any letter
      case, three for any other symbol or none. */
  function GetDisplayPrecision(symbol: Option<string>): (r: (nat, nat))
    ensures r.0 == r.1
    ensures r == (2, 2) <==> symbol.Some? && Upper(symbol.value) in Stablecoins
    ensures r != (2, 2) ==> r == (3, 3)
  {
    if symbol.Some? && symbol.value != "" && Upper(symbol.value) in Stablecoins then (2, 2) else (3, 3)
  }

  /** `balances.find(b => b.symbol === symbol)`: the index of the first entry
      with exactly that symbol (letter case matters). */
  function FindBySymbol(balances: seq<TokenBalance>, symbol: string): (r: Option<nat>)
    ensures r.None? <==> forall i :: 0 <= i < |balances| ==> balances[i].symbol != symbol
    ensures r.Some? ==> r.value < |balances| && balances[r.value].symbol == symbol
    ensures r.Some? ==> forall i :: 0 <= i < r.value ==> balances[i].symbol != symbol
  {
    if balances == [] then None
    else if balances[0].symbol == symbol then Some(0)
    else
      match FindBySymbol(balances[1..], symbol)
      case None => None
      case Some(i) => Some(i + 1)
  }

  /** `getPriceBySymbol`: "--" without an entry of that symbol, otherwise the
      first such entry's balance (0 when missing) rendered at the symbol's
      precision. */
  function GetPriceBySymbol(balances: seq<TokenBalance>, symbol: string, render: Render): (r: string)
    ensures (forall i :: 0 <= i < |balances| ==> balances[i].symbol != symbol) ==> r == "--"
    ensures FindBySymbol(balances, symbol).Some? ==>
              var b := balances[FindBySymbol(balances, symbol).value];
              r == render(b.balanceOf.GetOr(0), b.decimals, GetDisplayPrecision(Some(symbol)).0, GetDisplayPrecision(Some(symbol)).1)
  {
    match FindBySymbol(balances, symbol)
    case None => "--"
    case Some(i) =>
      var precision := GetDisplayPrecision(Some(symbol));
      render(balances[i].balanceOf.GetOr(0), balances[i].decimals, precision.0, precision.1)
  }

  /** The balance an option shows: the first matching entry's, 0 when there
      is no entry or it has no balance. */
  function BalanceOf(balances: seq<TokenBalance>, symbol: string): (r: int)
    ensures FindBySymbol(balances, symbol).None? ==> r == 0
    ensures FindBySymbol(balances, symbol).Some? ==>
              r == balances[FindBySymbol(balances, symbol).value].balanceOf.GetOr(0)
  {
    match FindBySymbol(balances, symbol)
    case None => 0
    case Some(i) => balances[i].balanceOf.GetOr(0)
  }

  /** The three options, always in the order token, pool share, savings
      vault. */
  function Options(balances: seq<TokenBalance>, s: Symbols): (r: seq<AssetOption>)
    ensures |r| == 3
    ensures r[0].symbol == s.token && r[0].name == "JuiceDollar"
    ensures r[1].symbol == s.poolShare && r[1].name == s.poolShare
    ensures r[2].symbol == s.savingsVault && r[2].name == s.savingsVault
    ensures forall i :: 0 <= i < 3 ==> r[i].balanceOf == BalanceOf(balances, r[i].symbol)
  {
    [
      AssetOption(s.token, "JuiceDollar", BalanceOf(balances, s.token)),
      AssetOption(s.poolShare, s.poolShare, BalanceOf(balances, s.poolShare)),
      AssetOption(s.savingsVault, s.savingsVault, BalanceOf(balances, s.savingsVault))
    ]
  }

  /** With no wallet balances at all, every option shows 0 and every price
      cell shows "--". */
  lemma EmptyWallet(s: Symbols, render: Render)
    ensures forall i :: 0 <= i < 3 ==> Options([], s)[i].balanceOf == 0
    ensures GetPriceBySymbol([], s.token, render) == "--"
  {
  }

  /** The lookup is case-sensitive while the precision table is not: for
      any balance list, a case variant of a symbol that no entry spells
      exactly finds nothing (the price cell shows "--" and the balance 0),
      yet it gets the same precision as the symbol itself. */
  lemma LookupIsCaseSensitive(balances: seq<TokenBalance>, symbol: string, variant: string, render: Render)
    requires EqualsIgnoreCase(symbol, variant)
    requires forall i :: 0 <= i < |balances| ==> balances[i].symbol != variant
    ensures FindBySymbol(balances, variant).None?
    ensures GetPriceBySymbol(balances, variant, render) == "--"
    ensures BalanceOf(balances, variant) == 0
    ensures GetDisplayPrecision(Some(variant)) == GetDisplayPrecision(Some(symbol))
  {
    SameUpperIgnoringCase(symbol, variant);
  }

  /** An instance: an entry "jusd" is not found under "JUSD", although both
      spellings get the stablecoin precision. */
  lemma LookupCaseExample(render: Render)
    ensures GetPriceBySymbol([TokenBalance("jusd", Some(5), 18)], "JUSD", render) == "--"
    ensures GetDisplayPrecision(Some("jusd")) == GetDisplayPrecision(Some("JUSD")) == (2, 2)
  {
    assert "jusd" != "JUSD";
    assert Upper("jusd") == "JUSD";
    assert Upper("JUSD") == "JUSD";
  }
}

=== FILE: solver_types.dfy ===
/** The record shapes the mint-page components exchange with the position
    solver. utils/positionSolver is not part of this model: its entry points
    `solveManage` and `getStrategiesForTarget` appear in the other modules
    only as uninterpreted function parameters, and nothing is assumed about
    what they compute. */
module SolverTypes {
  import opened Common

  /** Which dimension of the position the user wants to change. */
  datatype Target = Collateral | LiqPrice | Loan | Expiration

  /** Which other dimension the solver keeps fixed, or, for a higher
      liquidation price, that the freed collateral is withdrawn. */
  datatype Strategy = KeepLiqPrice | KeepCollateral | RemoveCollateral

  /** One step of an on-chain plan, executed in sequence order. */
  datatype TxStep = Deposit | Withdraw | Borrow | Repay

  /** A position snapshot as the solver sees it (BigInt fields; the
      expiration is a number of seconds). */
  datatype SolverPosition = SolverPosition(collateral: int, debt: int, liqPrice: int, expiration: int)

  /** What one solve returns: the next state, signed deltas (positive means
      increase), the ordered plan and whether the plan may be executed. */
  datatype SolverOutcome = SolverOutcome(
    next: SolverPosition,
    deltaCollateral: int,
    deltaDebt: int,
    deltaLiqPrice: int,
    txPlan: seq<TxStep>,
    isValid: bool)

  /** What one call of `solveManage` does: return an outcome, return
      `null`, or throw. */
  datatype Answer = Solved(outcome: SolverOutcome) | NoOutcome | Threw

  /** The outcome a caller keeps when it catches the exception: an outcome
      only when the solver returned one. */
  function Caught(a: Answer): (r: Option<SolverOutcome>)
    ensures r.Some? <==> a.Solved?
    ensures r.Some? ==> r.value == a.outcome
  {
    if a.Solved? then Some(a.outcome) else None
  }

  /** The signature of `solveManage`. */
  type Solve = (SolverPosition, Target, Strategy, int) -> Answer
}

=== FILE: sorting.dfy ===
/** The array operations the tables use: `Array.prototype.sort` with a
    comparator that orders by one key (modelled as a stable insertion sort,
    since the runtime's sort is stable), `reverse`, and `filter`. Sort keys
    are abstract integers: the client's keys are `Number(...)` conversions
    and `localeCompare`, which this model does not interpret. */
module Sorting {

  /** Non-decreasing in `key`. */
  ghost predicate Ascending<T>(xs: seq<T>, key: T -> int) {
    forall i, j :: 0 <= i < j < |xs| ==> key(xs[i]) <= key(xs[j])
  }

  /** Non-increasing in `key`. */
  ghost predicate Descending<T>(xs: seq<T>, key: T -> int) {
    forall i, j :: 0 <= i < j < |xs| ==> key(xs[i]) >= key(xs[j])
  }

  /** Inserts `x` before the first element whose key is not smaller. */
  function Insert<T>(x: T, xs: seq<T>, key: T -> int): (r: seq<T>)
    requires Ascending(xs, key)
    ensures multiset(r) == multiset(xs) + multiset{x}
    ensures Ascending(r, key)
    ensures |r| == |xs| + 1 && (r[0] == x || (|xs| > 0 && r[0] == xs[0]))
  {
    if xs == [] then [x]
    else if key(x) <= key(xs[0]) then [x] + xs
    else
      var rest := Insert(x, xs[1..], key);
      assert xs == [xs[0]] + xs[1..];
      assert key(xs[0]) <= key(rest[0]);
      [xs[0]] + rest
  }

  /** Orders `xs` by ascending `key`, keeping equal keys in input order. */
  function SortBy<T>(xs: seq<T>, key: T -> int): (r: seq<T>)
    ensures multiset(r) == multiset(xs)
    ensures |r| == |xs|
    ensures Ascending(r, key)
  {
    if xs == [] then []
    else
      assert xs == [xs[0]] + xs[1..];
      var r := Insert(xs[0], SortBy(xs[1..], key), key);
      assert |r| == |multiset(r)|;
      r
  }

  /** Orders `xs` by descending `key` (the comparator `(a, b) => k(b) - k(a)`). */
  function SortByDescending<T>(xs: seq<T>, key: T -> int): (r: seq<T>)
    ensures multiset(r) == multiset(xs)
    ensures |r| == |xs|
    ensures Descending(r, key)
  {
    var neg := (x: T) => -key(x);
    var r := SortBy(xs, neg);
    assert forall i, j :: 0 <= i < j < |r| ==> neg(r[i]) <= neg(r[j]);
    r
  }

  /** `Array.prototype.reverse`. */
  function Reverse<T>(xs: seq<T>): (r: seq<T>)
    ensures |r| == |xs|
    ensures forall i :: 0 <= i < |xs| ==> r[i] == xs[|xs| - 1 - i]
  {
    if xs == [] then [] else Reverse(xs[1..]) + [xs[0]]
  }

  /** Reversing keeps the elements: it is a permutation. */
  lemma {:induction false} ReversePermutes<T>(xs: seq<T>)
    ensures multiset(Reverse(xs)) == multiset(xs)
  {
    if xs != [] {
      ReversePermutes(xs[1..]);
      assert xs == [xs[0]] + xs[1..];
    }
  }

  /** Reversing twice gives back the input. */
  lemma ReverseInvolutive<T>(xs: seq<T>)
    ensures Reverse(Reverse(xs)) == xs
  {
  }

  /** Reversing an ascending sequence makes it descending, and conversely. */
  lemma ReverseFlipsOrder<T>(xs: seq<T>, key: T -> int)
    ensures Ascending(xs, key) ==> Descending(Reverse(xs), key)
    ensures Descending(xs, key) ==> Ascending(Reverse(xs), key)
  {
    var r := Reverse(xs);
    if Ascending(xs, key) {
      forall i, j | 0 <= i < j < |r| ensures key(r[i]) >= key(r[j]) {
        assert r[i] == xs[|xs| - 1 - i] && r[j] == xs[|xs| - 1 - j];
      }
    }
    if Descending(xs, key) {
      forall i, j | 0 <= i < j < |r| ensures key(r[i]) <= key(r[j]) {
        assert r[i] == xs[|xs| - 1 - i] && r[j] == xs[|xs| - 1 - j];
      }
    }
  }

  /** `xs.filter(keep)`: the elements `keep` accepts, in order. */
  function Filter<T>(xs: seq<T>, keep: T -> bool): (r: seq<T>)
    ensures |r| <= |xs|
    ensures multiset(r) <= multiset(xs)
    ensures forall i :: 0 <= i < |r| ==> keep(r[i])
    ensures forall i :: 0 <= i < |xs| && keep(xs[i]) ==> multiset(r)[xs[i]] == multiset(xs)[xs[i]]
  {
    if xs == [] then []
    else
      assert xs == [xs[0]] + xs[1..];
      if keep(xs[0]) then [xs[0]] + Filter(xs[1..], keep) else Filter(xs[1..], keep)
  }

  /** Filtering respects concatenation, so the survivors keep their relative order. */
  lemma {:induction false} FilterAppend<T>(xs: seq<T>, ys: seq<T>, keep: T -> bool)
    ensures Filter(xs + ys, keep) == Filter(xs, keep) + Filter(ys, keep)
  {
    if xs == [] {
      assert xs + ys == ys;
    } else {
      assert (xs + ys)[1..] == xs[1..] + ys;
      FilterAppend(xs[1..], ys, keep);
    }
  }

  /** When every element is accepted, the filter is the identity. */
  lemma {:induction false} FilterKeepsAll<T>(xs: seq<T>, keep: T -> bool)
    requires forall i :: 0 <= i < |xs| ==> keep(xs[i])
    ensures Filter(xs, keep) == xs
  {
    if xs != [] {
      FilterKeepsAll(xs[1..], keep);
    }
  }
}

=== FILE: text.dfy ===
/** String helpers the client relies on: `toLowerCase`/`toUpperCase` for
    case-insensitive comparison (hex addresses and token symbols, so only the
    ASCII letters are folded) and `String.prototype.includes`. */
module Text {

  function LowerChar(c: char): char {
    if 'A' <= c <= 'Z' then (c as int + 32) as char else c
  }

  function UpperChar(c: char): char {
    if 'a' <= c <= 'z' then (c as int - 32) as char else c
  }

  function Lower(s: string): (r: string)
    ensures |r| == |s|
    ensures forall i :: 0 <= i < |s| ==> r[i] == LowerChar(s[i])
  {
    seq(|s|, i requires 0 <= i < |s| => LowerChar(s[i]))
  }

  function Upper(s: string): (r: string)
    ensures |r| == |s|
    ensures forall i :: 0 <= i < |s| ==> r[i] == UpperChar(s[i])
  {
    seq(|s|, i requires 0 <= i < |s| => UpperChar(s[i]))
  }

  /** `a.toLowerCase() === b.toLowerCase()`. */
  predicate EqualsIgnoreCase(a: string, b: string) {
    Lower(a) == Lower(b)
  }

  lemma EqualsIgnoreCaseReflexive(a: string)
    ensures EqualsIgnoreCase(a, a)
  {
  }

  /** Folding case twice is folding it once. */
  lemma {:induction false} LowerIdempotent(s: string)
    ensures Lower(Lower(s)) == Lower(s)
  {
    assert forall i :: 0 <= i < |s| ==> LowerChar(LowerChar(s[i])) == LowerChar(s[i]);
  }

  /** Upper-casing ignores the case a string was written in. */
  lemma {:induction false} UpperOfLower(s: string)
    ensures Upper(Lower(s)) == Upper(s)
  {
    assert forall i :: 0 <= i < |s| ==> UpperChar(LowerChar(s[i])) == UpperChar(s[i]);
  }

  /** Strings equal ignoring case have the same upper-case form, so a
      comparison through `toUpperCase` cannot tell them apart. */
  lemma SameUpperIgnoringCase(a: string, b: string)
    requires EqualsIgnoreCase(a, b)
    ensures Upper(a) == Upper(b)
  {
    UpperOfLower(a);
    UpperOfLower(b);
  }

  predicate StartsWith(s: string, prefix: string) {
    |prefix| <= |s| && s[..|prefix|] == prefix
  }

  /** `s.includes(part)`: `part` occurs at some offset of `s`. */
  predicate Contains(s: string, part: string)
    decreases |s|
  {
    StartsWith(s, part) || (|s| > 0 && Contains(s[1..], part))
  }

  /** `part` occurs in `s` starting at offset `i`. */
  predicate OccursAt(s: string, part: string, i: int) {
    0 <= i && i + |part| <= |s| && s[i..i + |part|] == part
  }

  /** The recursive `Contains` is exactly "occurs at some offset". */
  lemma ContainsIffOffset(s: string, part: string)
    ensures Contains(s, part) <==> exists i :: OccursAt(s, part, i)
  {
    if Contains(s, part) {
      var i := ContainsWitness(s, part);
    }
    if i :| OccursAt(s, part, i) {
      OccursImpliesContains(s, part, i);
    }
  }

  /** An offset at which `part` occurs, when `Contains` holds. */
  lemma {:induction false} ContainsWitness(s: string, part: string) returns (i: int)
    requires Contains(s, part)
    ensures OccursAt(s, part, i)
    decreases |s|
  {
    if StartsWith(s, part) {
      i := 0;
      assert s[0..0 + |part|] == s[..|part|];
    } else {
      var j := ContainsWitness(s[1..], part);
      assert s[j + 1..j + 1 + |part|] == s[1..][j..j + |part|];
      i := j + 1;
    }
  }

  lemma {:induction false} OccursImpliesContains(s: string, part: string, i: int)
    requires OccursAt(s, part, i)
    ensures Contains(s, part)
    decreases i
  {
    if i == 0 {
      assert s[..|part|] == s[0..0 + |part|];
    } else {
      assert s[i..i + |part|] == s[1..][i - 1..i - 1 + |part|];
      OccursImpliesContains(s[1..], part, i - 1);
    }
  }

  /** Every string contains itself. */
  lemma ContainsSelf(s: string)
    ensures Contains(s, s)
  {
    assert StartsWith(s, s);
  }
}

=== FILE: valid_reference_position.dfy ===
/** Choice of a price reference among the open positions
    (hooks/useValidReferencePosition.ts): among the other positions on the
    same collateral that are open, active, backed by a loan and priced above
    the current price, the one with the highest price. The clock is the
    parameter `now` (seconds). */
module ValidReferencePosition {
  import opened Common
  import opened Text

  /** The fields of an open position the choice reads. */
  datatype OpenPosition = OpenPosition(
    position: string,
    collateral: string,
    closed: bool,
    expiration: int,
    cooldown: int,
    principal: int,
    price: int)

  /** The position being adjusted: its address and collateral token. */
  datatype Current = Current(position: string, collateral: string)

  /** The hook's result: an address (`None` for `null`) and a price. */
  datatype Reference = Reference(address: Option<string>, price: int)

  const NoReference: Reference := Reference(None, 0)

  /** The filter on lines 19-28. */
  predicate Eligible(p: OpenPosition, cur: Current, currentPrice: int, now: int) {
    && !EqualsIgnoreCase(p.position, cur.position)
    && EqualsIgnoreCase(p.collateral, cur.collateral)
    && !p.closed
    && now < p.expiration
    && now > p.cooldown
    && p.principal > 0
    && p.price > currentPrice
  }

  /** The hook: nothing without a current position or with a zero current
      price; otherwise an eligible position of the highest price, or nothing
      when none is eligible. */
  method Select(current: Option<Current>, currentPrice: int, open: seq<OpenPosition>, now: int)
    returns (r: Reference)
    ensures current.None? || currentPrice == 0 ==> r == NoReference
    ensures r.address.None? ==> r.price == 0
    ensures r.address.None? <==>
              current.None? || currentPrice == 0
              || forall i :: 0 <= i < |open| ==> !Eligible(open[i], current.value, currentPrice, now)
    ensures r.address.Some? ==>
              exists i :: 0 <= i < |open| && Eligible(open[i], current.value, currentPrice, now)
                          && open[i].position == r.address.value && open[i].price == r.price
    ensures r.address.Some? ==>
              forall i :: 0 <= i < |open| && Eligible(open[i], current.value, currentPrice, now) ==>
                            open[i].price <= r.price
    ensures r.address.Some? ==> r.price > currentPrice
  {
    if current.None? || currentPrice == 0 {
      return NoReference;
    }
    var cur := current.value;
    var best := -1;
    var k := 0;
    while k < |open|
      invariant 0 <= k <= |open|
      invariant -1 <= best < k
      invariant best == -1 <==> forall j :: 0 <= j < k ==> !Eligible(open[j], cur, currentPrice, now)
      invariant best >= 0 ==> Eligible(open[best], cur, currentPrice, now)
      invariant best >= 0 ==> forall j :: 0 <= j < k && Eligible(open[j], cur, currentPrice, now) ==>
                                            open[j].price <= open[best].price
    {
      if Eligible(open[k], cur, currentPrice, now) && (best == -1 || open[k].price > open[best].price) {
        best := k;
      }
      k := k + 1;
    }
    if best == -1 {
      return NoReference;
    }
    return Reference(Some(open[best].position), open[best].price);
  }
}
